=== FILE: README.md ===
# Versioned-asset cleanup, modelled in Dafny

This project models the scene-breakdown tool of a Houdini pipeline in Dafny. The tool
reads every file parameter of the scene and parses its path with a project path template.
It then finds the other versions of the same asset on disk, can move parameters to the
latest version, and deletes elder or unused versions after a confirmation.

The modules follow the Python files:

- `TemplateWrapper` (wrappers.dfy) is `config/wrappers.py`.
  - A pattern is a sequence of literal and placeholder tokens.
  - The constructor normalises backslashes and requires a `version` placeholder.
  - `format` zero-pads the version to three digits and writes it back into the caller's fields.
  - `parse` is a full match.
- `Templates` (templates.dfy) is `config/templates.py`: the generic pattern `root + /{step}/{asset}/v{version}/{asset_basename}`.
- `Houdini` (houdini.dfy) holds the string rules of `files/houdini.py`:
  - the variable swaps of `set_path`;
  - the reference filter of `get_parms`;
  - the set keyed by parameter path.
- `Discovery`, `Breakdown` and `Cleanup` (discovery.dfy, breakdown.dfy, cleanup.dfy) are `breakdown/logic.py`:
  - the version scan of `Row.__init__`: the `re.sub` rewrite, the glob and reading the versions back;
  - the `Row` queries, flags and updates;
  - the batch and per-row deletion commands and `delete`.
- `Text`, `Sorting` and `Results` model the Python built-ins the code uses:
  - `str.replace`, `str.zfill`, `int()` and `str()`;
  - `sorted`;
  - exceptions, as a `Result`.

The host and the filesystem are parameters:

- the expanded `$JOB` and `$HIP` and the node name;
- the list of paths `glob` can return;
- the set of existing files;
- the user's answer to the confirmation;
- what `os.remove` raises for each path;
- the order in which a Python set is iterated.

## Model

| member | source | states |
|---|---|---|
| TemplateWrapper.NewTemplate | scripts/python/config/wrappers.py:13-19 | After `\` becomes `/`, the template is built exactly when the pattern has a `version` placeholder. Its tokens render back to the normalised pattern and hold no backslash. Otherwise the error is the ValueError of that template name. |
| TemplateWrapper.RenderTokenize | scripts/python/config/wrappers.py:14-15 | Reading a pattern into tokens loses nothing: rendering the tokens gives back the pattern text. |
| TemplateWrapper.Fill | scripts/python/config/wrappers.py:31 | Substitution succeeds exactly when every placeholder has a value. On failure the error names a placeholder of the pattern that has no value. |
| TemplateWrapper.PadVersion | scripts/python/config/wrappers.py:29-30 | The write-back into the caller's fields keeps the same keys and leaves every other field unchanged. `version` becomes text of at least three characters, and an integer version reads back from it as the same integer. Version text of three or more characters is kept as it is. |
| TemplateWrapper.Format | scripts/python/config/wrappers.py:21-31 | Formatting succeeds exactly when the fields cover the template's placeholders. |
| TemplateWrapper.FormatIdempotent | scripts/python/config/wrappers.py:29-31 | Padding twice is the same as padding once, so formatting fields that were already formatted gives the same path. |
| TemplateWrapper.FillInjective | scripts/python/config/wrappers.py:31 | Two different values for a placeholder give two different paths. |
| TemplateWrapper.FormatPadsVersion | scripts/python/config/wrappers.py:29-31 | The formatted path contains `str(version).zfill(3)`. |
| TemplateWrapper.Parse | scripts/python/config/wrappers.py:33-41 | A failed parse is a pattern mismatch for that path. A parse binds exactly the template's placeholders. Each value is a non-empty string without `/`. Substituting the values gives back the argument verbatim, so `parse` does not normalise separators. |
| TemplateWrapper.FormatParseRoundTrip | scripts/python/config/wrappers.py:21-41 | `format(parse(p)) == p` exactly when the version text in `p` has at least three characters. |
| TemplateWrapper.ParseFormat | scripts/python/config/wrappers.py:21-41 | In a template where every placeholder is followed by `/`, parsing a formatted path gives back the (padded) values that were substituted. |
| TemplateWrapper.ParseNeedsLeadingLiteral | scripts/python/config/wrappers.py:33-41 | Parsing is a full match: a path that does not start with the template's leading literal is a mismatch. |
| Text.ZFill | scripts/python/config/wrappers.py:30 | Python's `str.zfill(width)`: zeros go after a leading sign until the text is `width` long, and longer text is kept. `ZFillShape`, `ZFillIdempotent` and `ParseZFilledStr` state its properties. |
| Text.Normalize | scripts/python/config/wrappers.py:14 | `replace("\\", "/")` works character by character: backslashes become `/` and nothing else changes. |
| Text.ZFillShape | scripts/python/config/wrappers.py:30 | `zfill(w)` pads to exactly `w` characters and never truncates. An unsigned text stays a suffix of the result. |
| Text.ZFillIdempotent | scripts/python/config/wrappers.py:30 | `zfill` applied twice is `zfill` applied once. |
| Text.ParseZFilledStr | scripts/python/config/wrappers.py:30 | `int(str(n).zfill(w)) == n` for every integer `n` and width `w`, negative numbers included. |
| Text.ZFillExamples | scripts/python/config/wrappers.py:30 | 7 is written `007`, 1234 is written `1234`, and -5 is written `-05`. |
| Templates.GenericTemplate | scripts/python/config/templates.py:7-18 | The template is named `general` and renders as the normalised root followed by `/{step}/{asset}/v{version}/{asset_basename}`. For a root without `{`, its tokens are the root's characters followed by the layout's tokens. |
| Templates.GenericNeverRaises | scripts/python/config/templates.py:15-17 | Building the generic template never raises, whatever the root. |
| Templates.KeysSurviveRoot | scripts/python/config/templates.py:15-16 | The placeholders after a `/{name}` mark survive any text in front of it, including an unclosed `{`. |
| Templates.GenericSeparated | scripts/python/config/templates.py:16 | For a root without `{`, every placeholder of the generic template is followed by `/` or ends the pattern. |
| Templates.GenericVersionSlot | scripts/python/config/templates.py:16 | The `version` placeholder sits between a literal `v` and a `/`. |
| Houdini.SetPath | scripts/python/files/houdini.py:53-80 | With all three flags off the path is written verbatim. With only `with_job` it is the `$JOB` swap alone. |
| Houdini.SetPathJobOnly | scripts/python/files/houdini.py:71-75 | With only `with_job`, the written value is the path cut at every occurrence of the `$JOB` text and joined with `$JOB`. No piece still contains the text. |
| Text.ReplaceIsJoinOfSplit | scripts/python/files/houdini.py:75 | Python's `replace` with a non-empty needle is the split at every non-overlapping occurrence, joined with the replacement. |
| Text.Replace | scripts/python/files/houdini.py:75-79 | Python's `str.replace`: occurrences are found left to right and never overlap. `ReplaceIsJoinOfSplit` relates it to split and join, and `ReplaceWithoutOccurrence` (via `SwapAbsent`) covers text without an occurrence. |
| Houdini.SwapAbsent | scripts/python/files/houdini.py:74-79 | A step whose text does not occur leaves the path unchanged. |
| Houdini.SetPathOrderMatters | scripts/python/files/houdini.py:74-79 | The swaps run `$JOB`, `$HIP`, `$OS`, each on the previous result. With `$HIP` inside `$JOB`, the result is `$JOB/s/f`; the other order would give `$HIP/f`. |
| Houdini.LastIsSuffixTest | scripts/python/files/houdini.py:117-118 | Comparing the slice `raw[-n:]` with an n-character suffix is the same as `endswith`. |
| Houdini.Skipped | scripts/python/files/houdini.py:116-120 | The skip test of `get_parms`: the raw value is `$HIP`, or its last three characters are `.py`, or its last five are `.json`. `SkippedMeaning` states what these slice tests mean. |
| Houdini.Kept | scripts/python/files/houdini.py:113-122 | A reference is kept when it is not skipped and not animated. `CollectParms` and `CollectHasAllKept` state that exactly these references are collected. |
| Houdini.SkippedMeaning | scripts/python/files/houdini.py:116-120 | A reference is skipped exactly when its raw value is `$HIP` or ends in `.py` or `.json`. |
| Houdini.CollectParms | scripts/python/files/houdini.py:97-123 | Every collected parameter is stored under its own parameter path. It is neither skipped nor animated, and it comes from the references. |
| Houdini.CollectHasAllKept | scripts/python/files/houdini.py:113-122 | Every reference that is neither skipped nor animated has its parameter path in the result. |
| Houdini.CollectFirstWins | scripts/python/files/houdini.py:12-16 | Equality and hashing go by parameter path, so the first kept reference of a path is the one the set holds. |
| Discovery.Rewrite | scripts/python/breakdown/logic.py:140 | `re.sub(r"v\d+", ...)` as a glob pattern: every `v` followed by digits becomes `v` and three digit classes, however many digits there were. Every other character stands for itself. What it finds is stated by `SelfMatch`, `SiblingFound` and `FoundHasThreeDigitRuns`. |
| Discovery.SelfMatch | scripts/python/breakdown/logic.py:139-142 | A path is found by its own glob pattern exactly when each of its `v<digits>` runs has three digits. This covers every run, not only the version. |
| Discovery.RewriteSplit | scripts/python/breakdown/logic.py:140 | The rewrite restarts at every non-digit: the text before it and the text after it are rewritten independently. |
| Discovery.FoundHasThreeDigitRuns | scripts/python/breakdown/logic.py:140-142 | Whatever path the scan starts from, every path its pattern matches has only three-digit `v<digits>` runs. |
| Discovery.LongVersionNotFound | scripts/python/breakdown/logic.py:140-142 | A path whose version has four or more digits is matched by no scan pattern, its own included. So versions from 1000 on drop out of every scan. |
| Discovery.SiblingFound | scripts/python/breakdown/logic.py:140-142 | Around a three-digit version, the pattern finds a sibling with another three-digit version exactly when the rest of the path has no `v<digits>` run of another length. |
| Discovery.Hits | scripts/python/breakdown/logic.py:142 | The hits are exactly the listed paths the pattern matches. |
| Discovery.VersionOf | scripts/python/breakdown/logic.py:136-137 | Reading a path's version fails only with the parse's pattern mismatch or the bad integer text of `int()`. |
| Discovery.VersionOfFormat | scripts/python/breakdown/logic.py:136-137 | In a template where every placeholder is followed by `/`, a path formatted with integer version `n` reads back as `n`. |
| Discovery.HitVersions | scripts/python/breakdown/logic.py:141-144 | The scan succeeds exactly when every hit, with `\` turned into `/`, reads as a version. Then there is one version per hit, in order. Otherwise the error is that of the first hit that fails. |
| Text.ParseInt | scripts/python/breakdown/logic.py:137 | `int(text)`: a failure is always `NotAnInteger(text)`. A success needs non-empty text whose characters after the first are ASCII digits. `ParseZFilledStr` pins the value read back from padded text. |
| Sorting.Sort | scripts/python/breakdown/logic.py:145 | `sorted()` on the found versions: the result is ascending and a permutation of its input, duplicates kept. |
| Breakdown.MakeRow | scripts/python/breakdown/logic.py:126-145 | The row is built exactly when the own path and every hit read as versions. A failure propagates: the own path's error if it fails, otherwise the error of the first hit that fails, since the loop over the glob results stops at the first exception. The row's fields are the parse of the expanded path and its version is their `int`. The versions are sorted and are a permutation of the hits' versions: one entry per hit, no deduplication. |
| Breakdown.MakeRowVersions | scripts/python/breakdown/logic.py:139-145 | A number is among the found versions exactly when some existing path that the pattern matches reads as that version. |
| Breakdown.CurrentVersionFound | scripts/python/breakdown/logic.py:135-145 | An existing path whose `v<digits>` runs all have three digits finds itself, so the current version is among the found versions. |
| Breakdown.BackslashFree | scripts/python/breakdown/logic.py:139-144 | Such a path holds no `\`. A `\` would become an extra `/` when the hit is normalised, and a parsed path holds exactly the template's `/` characters, so the hit could not parse and the row would not be built. |
| Breakdown.PathOf | scripts/python/breakdown/logic.py:250-255 | The path of version `v` is the row's fields, with `version` set to `v`, formatted on a copy. `PathOfFields` and `PathOfReadsBack` state that it differs from the row's own path only in the version text, which reads back as `v`. |
| Breakdown.Candidates | scripts/python/breakdown/logic.py:248-256 | A path is a candidate exactly when it is the formatted path of some listed version that the query selects. The list has one entry per selected entry of the versions. |
| Breakdown.PathOfInjective | scripts/python/breakdown/logic.py:252-255 | Two different versions of one row format to two different paths. |
| Breakdown.CandidatesPerVersion | scripts/python/breakdown/logic.py:252-256 | The path of a selected version is listed exactly as many times as the version occurs among the found versions. So a version found twice is listed twice, and `delete` later meets it twice. |
| Breakdown.GetPlan | scripts/python/breakdown/logic.py:242-274 | The keep path is the expanded path. The candidates are exactly the paths of the found versions below the current one (elders) or different from it (unused). The list has as many entries as there are selected entries among the found versions; `CandidatesPerVersion` gives how often each path appears. |
| Breakdown.EldersPrefixOfUnused | scripts/python/breakdown/logic.py:248-274 | With the versions sorted, the elders list is a prefix of the unused list. |
| Breakdown.EldersWithinUnused | scripts/python/breakdown/logic.py:242-274 | Every elder candidate is an unused candidate. |
| Breakdown.KeepNotCandidate | scripts/python/breakdown/logic.py:242-274 | A row never nominates the path it uses. |
| Breakdown.PathOfReadsBack | scripts/python/breakdown/logic.py:250-253 | In a template where every placeholder is followed by `/`, the path formatted for version `v` reads back as `v`, with every other field as parsed from the row's own path. |
| Breakdown.Outdated | scripts/python/breakdown/logic.py:170 | The flag `not versions or versions[-1] != version`. `OutdatedMeaning` states what it means for sorted versions. |
| Breakdown.OutdatedMeaning | scripts/python/breakdown/logic.py:170 | A row is up to date exactly when its version was found and no found version is newer. An empty list counts as outdated. |
| Breakdown.MarkerOf | scripts/python/breakdown/logic.py:169-178 | The broken marker shows exactly when no file is at the expanded path. The outdated marker shows exactly when the file exists and the row is outdated. |
| Breakdown.UpdateVersion | scripts/python/breakdown/logic.py:190-201 | Only `version` changes in the row's fields, and it becomes padded text that reads back as the new version. The new path is those fields substituted. The written value is that path with all three variable swaps. |
| Breakdown.Latest | scripts/python/breakdown/logic.py:38-40 | A row is moved exactly when it found versions, and then to the largest of them. |
| Breakdown.UpdateAll | scripts/python/breakdown/logic.py:32-41 | `update_all` yields one entry per row. Its own contract says no more; `UpdateAllAt` states what each entry is. |
| Breakdown.UpdateAllAt | scripts/python/breakdown/logic.py:32-41 | `update_all` updates row `i` exactly when it found versions, and then to its latest version. |
| Cleanup.Existing | scripts/python/breakdown/logic.py:84-88 | `delete` considers exactly the listed paths that are existing files. |
| Cleanup.RemoveEach | scripts/python/breakdown/logic.py:95-104 | Only listed paths without a fault are removed. The loop finishes exactly when every fault is a permission error and no path is listed twice without a fault. When it finishes, every listed path without a fault is gone and the refused ones are reported. When it stops early, it names the path that raised. |
| Cleanup.Delete | scripts/python/breakdown/logic.py:78-104 | With no existing path nothing is removed and "Nothing to delete!" is the outcome. When the confirmation is declined nothing is removed. Otherwise only existing listed paths without a fault are removed, with the same finish and stop conditions as the loop. |
| Cleanup.CollectBatch | scripts/python/breakdown/logic.py:50-56 | The loop of `delete_elder` (the same loop for `delete_unused` is at lines 67-73): for each row it adds the candidates to the delete set and the kept path to the save set, then subtracts the save set. The result holds exactly the paths some row nominates and no row uses, and it equals the reference set `BatchPlan`: the nominated paths less the used ones. |
| Cleanup.BatchEldersWithinUnused | scripts/python/breakdown/logic.py:44-75 | The batch elder plan is contained in the batch unused plan. |
| Cleanup.BatchDelete | scripts/python/breakdown/logic.py:44-75 | No file a row uses is removed, even when another row nominates it. Only nominated paths without a fault are removed. A finished run removes every planned existing path without a fault. |
| Cleanup.RowDeleteAsWritten | scripts/python/breakdown/logic.py:216-240 | The per-row command removes only the row's own candidates and never its own file. A finished run removes every existing candidate without a fault. |
| Cleanup.RowDeleteRemovesOtherKeep | scripts/python/breakdown/logic.py:216-240 | Take two rows on two versions of the same asset. The row on the newer version nominates the file the other row uses, both as an elder and as unused. |
| Cleanup.RowPlan | scripts/python/breakdown/logic.py:216-240 | The corrected per-row plan is the row's candidates less every path a row uses. It is contained in the batch plan. |
| Cleanup.RowDelete | scripts/python/breakdown/logic.py:216-240 | The corrected per-row command removes only the row's candidates and never a file any row uses. |

## Left out

- The third-party template library is not part of this model. Its behaviour is replaced by the assumptions at the head of wrappers.dfy:
  - `{name}` placeholders closed by the first `}`;
  - a full match in which each placeholder takes a non-empty run without `/`, greedy with backtracking;
  - a repeated placeholder takes the same text each time;
  - `str(value)` substitution.
  Its error types are folded into `PatternMismatch` and `MissingField`.
- The host API is replaced by parameters:
  - `hou.fileReferences`, and the `opchange` workaround around it;
  - `parm.eval` and `parm.set`, and the re-read after `set_path`;
  - `hou.expandString`;
  - `get_setter_parm`, which walks the host's reference chain. `CollectParms` takes the parameters that walk yields.
- `roots.get_job_root` is replaced by a parameter: the root of the generic template.
- The Qt interface is left out, because it is presentation only:
  - the widgets of `to_widgets` and the emoji around the name (the marker is modelled, its glyphs are not);
  - the message texts and prints;
  - `get_version_range`;
  - `get_prepared_dialog`;
  - the refresh done by `update_items`. A refresh is building the rows again with `MakeRow`.
- `int()` is modelled on an optional sign followed by ASCII digits. Python also accepts surrounding whitespace, underscores and non-ASCII digits.
- `\d` in the regular expression is modelled as an ASCII digit. Python's `\d` also matches other Unicode digits.
- `glob.glob` is modelled as the listed paths that match the pattern position by position. Other glob metacharacters inside paths, case folding, and the difference between files and directories are not modelled.
- The iteration order of a Python set is a parameter of `BatchDelete` and `RowDelete`.
- Breakdown.Candidates: states which paths are candidates, how many, and how often each (with `CandidatesPerVersion`), not that they come in ascending version order; `EldersPrefixOfUnused` states the ordering fact the model needs.
- Breakdown.GetPlan: like `Candidates`, states the candidates' members and count but not their ascending order.
- Cleanup.BatchDelete: a file is identified by its exact path string. The guarantee that no used file is removed holds only when every row spells a shared file identically. On a case-insensitive filesystem, or with `\` and `/` mixed in an expanded path, two rows can name one file differently, and the batch command can remove a file another row uses. The source notes the case question as open (scripts/python/config/wrappers.py:8).
- Cleanup.Delete: a path that raises `FileNotFoundError` because it was already removed earlier in the same call is modelled; a file that disappears between the check and the removal for other reasons is not, because the filesystem is a fixed set.
- Houdini.SetPath: the written value is modelled; storing it in the parameter and reading back the expanded value is host behaviour.

Behaviour of the code worth knowing, all of it modelled:

- A row with no found versions is outdated (scripts/python/breakdown/logic.py:170).
- Found versions are not deduplicated, and a hit that fails to parse aborts the whole row (scripts/python/breakdown/logic.py:136-145).
- The rewrite replaces every `v<digits>` run of the path, not only the version placeholder. So a `v1` elsewhere in the path hides every version (`Discovery.SelfMatch`).

## Findings

| source | as written | input that shows it | evidently intended | confidence | as-written member | corrected member |
|---|---|---|---|---|---|---|
| scripts/python/breakdown/logic.py:216-240 | `Row.delete_elder` and `Row.delete_unused` pass the row's own candidates to `delete`. They do not subtract the paths other rows use. | Two parameters read `.../v003/...` and `.../v005/...` of the same asset. Pressing delete-elder on the `v005` row removes the `v003` file, which the scene still references. | The docstrings say "For all assets", and the batch commands (lines 50-56 and 67-73) subtract every used path. A file the scene uses should never be deleted. | medium, not executed | Cleanup.RowDeleteRemovesOtherKeep (with Cleanup.RowDeleteAsWritten) | Cleanup.RowDelete (with Cleanup.RowPlan) |

=== FILE: breakdown.dfy ===
/** The `Row` class of breakdown/logic.py: one file parameter of the scene, the fields parsed
    from its expanded path, the version it uses and the versions found next to it, with the
    queries, flags and updates built on them. The host and the filesystem are parameters: the
    listing of existing paths for the glob, the set of existing files for the broken flag, and
    the expanded `$JOB`/`$HIP` for writing a path back. */
module Breakdown {
  import opened Results
  import opened Text
  import opened Sorting
  import opened TemplateWrapper
  import opened Houdini
  import opened Discovery

  datatype Row = Row(
    parm: PathParm,
    template: Template,
    fields: Fields,        // template.parse(expanded path)
    version: int,          // int(fields["version"])
    versions: seq<int>)    // the versions found by the glob, ascending

  /** The state `Row.__init__` leaves behind: the fields are the parse of the expanded path,
      the version is read from them, and the found versions are sorted. */
  predicate Scanned(row: Row) {
    && Parse(row.template, row.parm.expanded) == Ok(row.fields)
    && ParseInt(row.fields["version"].s) == Ok(row.version)
    && Sorted(row.versions)
  }

  // ---------------------------------------------------------------------------
  // Row.__init__
  // ---------------------------------------------------------------------------

  /** `Row(dialog, parm, template)`. `listing` holds every path that exists. An error of the
      parse, of int(), or of any hit aborts the construction; duplicate versions are kept. */
  function MakeRow(t: Template, parm: PathParm, listing: seq<string>): (r: Result<Row>)
    ensures VersionOf(t, parm.expanded).Err? ==> r == Err(VersionOf(t, parm.expanded).error)
    ensures VersionOf(t, parm.expanded).Ok? && r.Err? ==>
      (HitVersions(t, Hits(listing, Rewrite(parm.expanded))).Err? &&
       r == Err(HitVersions(t, Hits(listing, Rewrite(parm.expanded))).error))
    ensures r.Ok? <==> (VersionOf(t, parm.expanded).Ok? &&
      forall h :: h in Hits(listing, Rewrite(parm.expanded)) ==> VersionOf(t, Normalize(h)).Ok?)
    ensures r.Ok? ==> Scanned(r.value) && r.value.parm == parm && r.value.template == t
    ensures r.Ok? ==> Ok(r.value.version) == VersionOf(t, parm.expanded)
    ensures r.Ok? ==> |r.value.versions| == |Hits(listing, Rewrite(parm.expanded))|
    ensures r.Ok? ==> (HitVersions(t, Hits(listing, Rewrite(parm.expanded))).Ok? &&
      multiset(r.value.versions) == multiset(HitVersions(t, Hits(listing, Rewrite(parm.expanded))).value))
  {
    var fields :- Parse(t, parm.expanded);
    var version :- ParseInt(fields["version"].s);
    var hits := Hits(listing, Rewrite(parm.expanded));
    var found :- HitVersions(t, hits);
    assert forall h :: h in hits ==> exists i :: 0 <= i < |hits| && hits[i] == h;
    Ok(Row(parm, t, fields, version, Sort(found)))
  }

  /** The found versions are exactly the versions of the existing paths the pattern matches. */
  lemma MakeRowVersions(t: Template, parm: PathParm, listing: seq<string>, v: int)
    requires MakeRow(t, parm, listing).Ok?
    ensures v in MakeRow(t, parm, listing).value.versions <==>
      exists h :: h in listing && Matches(h, Rewrite(parm.expanded)) && VersionOf(t, Normalize(h)) == Ok(v)
  {
    var hits := Hits(listing, Rewrite(parm.expanded));
    var found := HitVersions(t, hits).value;
    var row := MakeRow(t, parm, listing).value;
    assert row.versions == Sort(found);
    SameElements(row.versions, found, v);
    FoundVersions(t, hits, v);
  }

  lemma SameElements(a: seq<int>, b: seq<int>, x: int)
    requires multiset(a) == multiset(b)
    ensures x in a <==> x in b
  {
    assert x in a <==> x in multiset(a);
    assert x in b <==> x in multiset(b);
  }

  /** A version is found exactly when some hit reads as it. */
  lemma FoundVersions(t: Template, hits: seq<string>, v: int)
    requires HitVersions(t, hits).Ok?
    ensures v in HitVersions(t, hits).value <==> exists h :: h in hits && VersionOf(t, Normalize(h)) == Ok(v)
  {
    var found := HitVersions(t, hits).value;
    if v in found {
      var i :| 0 <= i < |found| && found[i] == v;
      assert hits[i] in hits;
    }
    if exists h :: h in hits && VersionOf(t, Normalize(h)) == Ok(v) {
      var h :| h in hits && VersionOf(t, Normalize(h)) == Ok(v);
      var i :| 0 <= i < |hits| && hits[i] == h;
      assert found[i] == v;
    }
  }

  /** An existing path whose `v<digits>` runs all have three digits finds itself, so its own
      version is among the found versions. */
  lemma CurrentVersionFound(t: Template, parm: PathParm, listing: seq<string>)
    requires MakeRow(t, parm, listing).Ok?
    requires parm.expanded in listing && ThreeDigitRuns(parm.expanded)
    ensures MakeRow(t, parm, listing).value.version in MakeRow(t, parm, listing).value.versions
  {
    var p := parm.expanded;
    SelfMatch(p);
    BackslashFree(t, parm, listing);
    assert Normalize(p) == p by {
      forall i | 0 <= i < |p| ensures Normalize(p)[i] == p[i] {
        assert p[i] in p;
      }
    }
    MakeRowVersions(t, parm, listing, MakeRow(t, parm, listing).value.version);
  }

  /** A row's own path has no `\\`: normalising would add a `/` to it, and then the path,
      which matches its own pattern, could not parse as a hit. */
  lemma BackslashFree(t: Template, parm: PathParm, listing: seq<string>)
    requires MakeRow(t, parm, listing).Ok?
    requires parm.expanded in listing && ThreeDigitRuns(parm.expanded)
    ensures '\\' !in parm.expanded
  {
    var p := parm.expanded;
    if '\\' in p {
      assert '\\' in multiset(p);
      SelfMatch(p);
      NormalizeSlashes(p);
      ParseSlashes(t, p);
      ParseSlashes(t, Normalize(p));
      assert false;
    }
  }

  // ---------------------------------------------------------------------------
  // get_elders / get_unused
  // ---------------------------------------------------------------------------

  /** `get_elders` selects versions below the current one, `get_unused` those different from it. */
  datatype Query = Elders | Unused

  predicate Selects(q: Query, v: int, current: int) {
    match q
    case Elders => v < current
    case Unused => v != current
  }

  /** The path of version `v` of the row's asset: the row's fields with `version` replaced,
      formatted (on a copy: the row itself is not changed). */
  function PathOf(row: Row, v: int): string
    requires Scanned(row)
  {
    var f := row.fields["version" := IntVal(v)];
    assert Keys(row.template.tokens) <= f.Keys;
    Format(row.template, f).value
  }

  /** How many entries of `vs` the query selects, a repeated version counted each time. */
  function SelectedCount(q: Query, vs: seq<int>, current: int): nat {
    if vs == [] then 0
    else (if Selects(q, vs[0], current) then 1 else 0) + SelectedCount(q, vs[1..], current)
  }

  /** The paths of the selected versions among `vs`, in the order of `vs`: one path for each
      selected entry, so a version found twice is listed twice. */
  function Candidates(row: Row, q: Query, vs: seq<int>): (paths: seq<string>)
    requires Scanned(row)
    ensures |paths| <= |vs|
    ensures |paths| == SelectedCount(q, vs, row.version)
    ensures forall p :: p in paths <==> exists v :: v in vs && Selects(q, v, row.version) && p == PathOf(row, v)
  {
    if vs == [] then []
    else
      var rest := Candidates(row, q, vs[1..]);
      assert forall v :: v in vs <==> v == vs[0] || v in vs[1..];
      if Selects(q, vs[0], row.version) then [PathOf(row, vs[0])] + rest else rest
  }

  /** What `get_elders`/`get_unused` return: the path to keep and the paths to delete. */
  datatype Plan = Plan(keep: string, candidates: seq<string>)

  function GetPlan(row: Row, q: Query): (plan: Plan)
    requires Scanned(row)
    ensures plan.keep == row.parm.expanded
    ensures |plan.candidates| == SelectedCount(q, row.versions, row.version)
    ensures forall p :: p in plan.candidates <==>
      exists v :: v in row.versions && Selects(q, v, row.version) && p == PathOf(row, v)
  {
    Plan(row.parm.expanded, Candidates(row, q, row.versions))
  }

  /** With the versions ascending, the elder versions come first: the elders list is a prefix
      of the unused list, and so every elder candidate is an unused candidate. */
  lemma {:induction false} EldersPrefixOfUnused(row: Row, vs: seq<int>)
    requires Scanned(row) && Sorted(vs)
    ensures Candidates(row, Elders, vs) <= Candidates(row, Unused, vs)
  {
    if vs != [] {
      assert Sorted(vs[1..]);
      EldersPrefixOfUnused(row, vs[1..]);
      if vs[0] >= row.version {
        NoEldersAbove(row, vs);
      }
    }
  }

  lemma {:induction false} NoEldersAbove(row: Row, vs: seq<int>)
    requires Scanned(row)
    requires forall i :: 0 <= i < |vs| ==> vs[i] >= row.version
    ensures Candidates(row, Elders, vs) == []
  {
    if vs != [] {
      NoEldersAbove(row, vs[1..]);
    }
  }

  lemma EldersWithinUnused(row: Row)
    requires Scanned(row)
    ensures forall p :: p in GetPlan(row, Elders).candidates ==> p in GetPlan(row, Unused).candidates
  {
    EldersPrefixOfUnused(row, row.versions);
  }

  /** A string that int() accepts holds no `/`. */
  lemma NumberHasNoSlash(x: string)
    requires ParseInt(x).Ok?
    ensures Parseable(x)
  {
    forall i | 0 <= i < |x| ensures x[i] != '/' {
      if i > 0 {
        assert x[1..][i - 1] == x[i];
      }
    }
  }

  /** The fields formatted for version `v`: the row's fields with the padded version text. */
  lemma PathOfFields(row: Row, v: int)
    requires Scanned(row)
    ensures var x := PadVersion(row.fields["version" := IntVal(v)])["version"].s;
      ParseInt(x) == Ok(v) &&
      PathOf(row, v) == Fill(row.template.tokens, Strings(row.fields)["version" := x]).value
  {
    var f := row.fields["version" := IntVal(v)];
    var x := PadVersion(f)["version"].s;
    assert Strings(PadVersion(f)) == Strings(row.fields)["version" := x];
  }

  /** The path the row keeps is never among its own candidates: a candidate's version text
      reads as a version other than the current one, and substituting a different text for
      `version` gives a different path. */
  lemma KeepNotCandidate(row: Row, q: Query)
    requires Scanned(row)
    ensures row.parm.expanded !in GetPlan(row, q).candidates
  {
    var m := Strings(row.fields);
    var text := row.fields["version"].s;
    assert m == m["version" := text];
    forall v | v in row.versions && Selects(q, v, row.version)
      ensures PathOf(row, v) != row.parm.expanded
    {
      PathOfFields(row, v);
      var x := PadVersion(row.fields["version" := IntVal(v)])["version"].s;
      assert x != text;
      FillInjective(row.template.tokens, m, "version", x, text);
    }
  }

  /** Different versions of one row have different paths. */
  lemma PathOfInjective(row: Row, v: int, w: int)
    requires Scanned(row) && v != w
    ensures PathOf(row, v) != PathOf(row, w)
  {
    var m := Strings(row.fields);
    PathOfFields(row, v);
    PathOfFields(row, w);
    var x := PadVersion(row.fields["version" := IntVal(v)])["version"].s;
    var y := PadVersion(row.fields["version" := IntVal(w)])["version"].s;
    assert x != y;
    FillInjective(row.template.tokens, m, "version", x, y);
  }

  /** Each selected entry of `vs` contributes its own path: the path of a selected version
      is listed exactly as often as the version occurs in `vs`, so a version found twice is
      listed twice. */
  lemma {:induction false} CandidatesPerVersion(row: Row, q: Query, vs: seq<int>, v: int)
    requires Scanned(row) && Selects(q, v, row.version)
    ensures multiset(Candidates(row, q, vs))[PathOf(row, v)] == multiset(vs)[v]
    decreases |vs|
  {
    if vs != [] {
      var p := PathOf(row, v);
      var rest := Candidates(row, q, vs[1..]);
      var head := CandidatesUnfold(row, q, vs);
      CandidatesPerVersion(row, q, vs[1..], v);
      HeadCount(row, q, vs, v, head);
      CountAppend(Candidates(row, q, vs), head, rest, p);
      CountCons(vs, v);
    }
  }

  /** One step of `Candidates`: the path of the first version, when it is selected, in front
      of the rest. */
  lemma CandidatesUnfold(row: Row, q: Query, vs: seq<int>) returns (head: seq<string>)
    requires Scanned(row) && vs != []
    ensures head == if Selects(q, vs[0], row.version) then [PathOf(row, vs[0])] else []
    ensures Candidates(row, q, vs) == head + Candidates(row, q, vs[1..])
  {
    head := if Selects(q, vs[0], row.version) then [PathOf(row, vs[0])] else [];
  }

  /** The first step contributes the path of `v` once when the first version is `v`, and
      not at all otherwise. */
  lemma HeadCount(row: Row, q: Query, vs: seq<int>, v: int, head: seq<string>)
    requires Scanned(row) && vs != [] && Selects(q, v, row.version)
    requires head == if Selects(q, vs[0], row.version) then [PathOf(row, vs[0])] else []
    ensures multiset(head)[PathOf(row, v)] == if vs[0] == v then 1 else 0
  {
    if vs[0] != v {
      PathOfInjective(row, vs[0], v);
    }
  }

  lemma CountAppend(whole: seq<string>, head: seq<string>, rest: seq<string>, p: string)
    requires whole == head + rest
    ensures multiset(whole)[p] == multiset(head)[p] + multiset(rest)[p]
  {
  }

  lemma CountCons(vs: seq<int>, v: int)
    requires vs != []
    ensures multiset(vs)[v] == (if vs[0] == v then 1 else 0) + multiset(vs[1..])[v]
  {
    assert vs == [vs[0]] + vs[1..];
  }

  /** In a template whose placeholders are each followed by `/`, the path of version `v` reads
      back as version `v`, with every other field as parsed from the row's own path. */
  lemma PathOfReadsBack(row: Row, v: int)
    requires Scanned(row) && Separated(row.template.tokens)
    ensures VersionOf(row.template, PathOf(row, v)) == Ok(v)
    ensures forall n :: n in row.fields && n != "version" ==>
      Parse(row.template, PathOf(row, v)).value[n] == row.fields[n]
  {
    var t := row.template;
    var f := row.fields["version" := IntVal(v)];
    var padded := PadVersion(f);
    PathOfFields(row, v);
    NumberHasNoSlash(padded["version"].s);
    ParseFormat(t, f);
  }

  // ---------------------------------------------------------------------------
  // flags
  // ---------------------------------------------------------------------------

  /** `outdated = not versions or versions[-1] != version`. */
  predicate Outdated(row: Row) {
    row.versions == [] || row.versions[|row.versions| - 1] != row.version
  }

  /** A row is up to date exactly when its version was found and no found version is newer. */
  lemma OutdatedMeaning(row: Row)
    requires Sorted(row.versions)
    ensures !Outdated(row) <==> (row.version in row.versions &&
      forall v :: v in row.versions ==> v <= row.version)
  {
    if row.versions != [] {
      LastIsMax(row.versions);
      assert row.versions[|row.versions| - 1] in row.versions;
    }
  }

  /** The marker put around the row's name. */
  datatype Marker = BrokenMarker | OutdatedMarker | NoMarker

  /** `broken` (no file at the expanded path) wins over `outdated`. */
  function MarkerOf(row: Row, files: set<string>): (m: Marker)
    ensures m == BrokenMarker <==> row.parm.expanded !in files
    ensures m == OutdatedMarker <==> row.parm.expanded in files && Outdated(row)
    ensures m == NoMarker <==> row.parm.expanded in files && !Outdated(row)
  {
    if row.parm.expanded !in files then BrokenMarker
    else if Outdated(row) then OutdatedMarker
    else NoMarker
  }

  // ---------------------------------------------------------------------------
  // update_version / update_all
  // ---------------------------------------------------------------------------

  /** The effect of `update_version(target)`: the row's fields after `format` has padded them in
      place, the formatted path, and the value written into the parameter by `set_path` with
      all three swaps enabled. */
  datatype Update = Update(fields: Fields, path: string, written: string)

  function UpdateVersion(row: Row, target: int, job: string, hip: string): (u: Update)
    requires Scanned(row)
    ensures u.fields.Keys == row.fields.Keys
    ensures forall n :: n in row.fields && n != "version" ==> u.fields[n] == row.fields[n]
    ensures u.fields["version"].StrVal? && ParseInt(u.fields["version"].s) == Ok(target)
    ensures Fill(row.template.tokens, Strings(u.fields)) == Ok(u.path)
    ensures u.path == PathOf(row, target)
    ensures u.written == SetPath(u.path, job, hip, row.parm.node, true, true, true)
  {
    var f := row.fields["version" := IntVal(target)];
    var path := PathOf(row, target);
    Update(PadVersion(f), path, SetPath(path, job, hip, row.parm.node, true, true, true))
  }

  /** The version `update_all` moves a row to: its last found version, which is the largest;
      none when nothing was found. */
  function Latest(row: Row): (m: Option<int>)
    requires Scanned(row)
    ensures m.Some? <==> row.versions != []
    ensures m.Some? ==> m.value in row.versions && forall v :: v in row.versions ==> v <= m.value
  {
    if row.versions == [] then None
    else
      LastIsMax(row.versions);
      Some(row.versions[|row.versions| - 1])
  }

  /** `update_all`: every row with found versions is updated to its latest version; a row
      without found versions is left alone. */
  function UpdateAll(rows: seq<Row>, job: string, hip: string): (us: seq<Option<Update>>)
    requires forall i :: 0 <= i < |rows| ==> Scanned(rows[i])
    ensures |us| == |rows|
  {
    if rows == [] then []
    else
      var latest := Latest(rows[0]);
      var u := if latest.Some? then Some(UpdateVersion(rows[0], latest.value, job, hip)) else None;
      [u] + UpdateAll(rows[1..], job, hip)
  }

  /** Row `i` of `update_all` is updated exactly when it found versions, and then to the
      latest of them. */
  lemma {:induction false} UpdateAllAt(rows: seq<Row>, job: string, hip: string, i: nat)
    requires forall k :: 0 <= k < |rows| ==> Scanned(rows[k])
    requires i < |rows|
    ensures UpdateAll(rows, job, hip)[i].Some? <==> rows[i].versions != []
    ensures UpdateAll(rows, job, hip)[i].Some? ==>
      UpdateAll(rows, job, hip)[i].value == UpdateVersion(rows[i], Latest(rows[i]).value, job, hip)
  {
    if i > 0 {
      var tail := rows[1..];
      forall k | 0 <= k < |tail| ensures Scanned(tail[k]) {
        assert tail[k] == rows[k + 1];
      }
      UpdateAllAt(tail, job, hip, i - 1);
      assert UpdateAll(rows, job, hip)[i] == UpdateAll(tail, job, hip)[i - 1];
      assert tail[i - 1] == rows[i];
    }
  }
}

=== FILE: cleanup.dfy ===
/** The deletion half of breakdown/logic.py: the batch plans of `delete_elder` and
    `delete_unused`, the per-row commands of the same names, and `delete`, which removes the
    files after a confirmation. The filesystem is a set of existing paths, the user's answer is
    a parameter, and what `os.remove` raises for a path is given by a map. */
module Cleanup {
  import opened Results
  import opened Text
  import opened TemplateWrapper
  import opened Breakdown

  // ---------------------------------------------------------------------------
  // delete
  // ---------------------------------------------------------------------------

  /** The paths of `to_delete` that are existing files, in order (`os.path.isfile`). */
  function Existing(toDelete: seq<string>, files: set<string>): (r: seq<string>)
    ensures |r| <= |toDelete|
    ensures forall p :: p in r <==> p in toDelete && p in files
  {
    if toDelete == [] then []
    else (if toDelete[0] in files then [toDelete[0]] else []) + Existing(toDelete[1..], files)
  }

  /** What `os.remove` raises for a path that exists: `PermissionError`, which `delete`
      reports and gets past, or any other error, which leaves `delete` and its caller. */
  datatype Fault = PermissionDenied | OtherError

  /** How `delete` ends: nothing to delete, the confirmation declined, every path attempted
      (with the ones refused), or an error escaped while removing `path`. A path listed twice
      is gone at its second removal, which raises `FileNotFoundError`. */
  datatype Outcome =
    | NothingToDelete
    | Declined
    | Finished(denied: seq<string>)
    | Raised(path: string, denied: seq<string>)

  /** The first `n` removals of `paths` all get through: every fault among them is a
      permission error, and a path met twice among them was refused the first time. */
  predicate CleanUpTo(paths: seq<string>, faults: map<string, Fault>, n: nat)
    requires n <= |paths|
  {
    && (forall j :: 0 <= j < n && paths[j] in faults ==> faults[paths[j]] == PermissionDenied)
    && (forall j, k :: 0 <= j < k < n && paths[j] == paths[k] ==> paths[j] in faults)
  }

  predicate Clean(paths: seq<string>, faults: map<string, Fault>) {
    CleanUpTo(paths, faults, |paths|)
  }

  /** The loop of `delete`: `os.remove` on each path in turn, a permission error reported and
      passed over, any other error leaving the loop. */
  method RemoveEach(paths: seq<string>, files: set<string>, faults: map<string, Fault>)
    returns (outcome: Outcome, after: set<string>)
    requires forall p :: p in paths ==> p in files
    ensures outcome.Finished? || outcome.Raised?
    ensures outcome.Finished? <==> Clean(paths, faults)
    ensures after <= files
    ensures forall p :: p in files && p !in after ==> p in paths && p !in faults
    ensures outcome.Finished? ==> forall p :: p in paths ==> (p in after <==> p in faults)
    ensures outcome.Finished? ==> forall p :: p in outcome.denied <==> p in paths && p in faults
    ensures outcome.Raised? ==> (outcome.path in paths &&
      ((outcome.path in faults && faults[outcome.path] == OtherError) || (outcome.path !in faults && outcome.path !in after)))
  {
    after := files;
    var denied := [];
    var i := 0;
    while i < |paths|
      invariant 0 <= i <= |paths|
      invariant after <= files
      invariant forall p :: p in files && p !in after ==> p in paths[..i] && p !in faults
      invariant forall j :: 0 <= j < i ==> (paths[j] in after <==> paths[j] in faults)
      invariant CleanUpTo(paths, faults, i)
      invariant forall p :: p in denied <==> p in paths[..i] && p in faults
    {
      var path := paths[i];
      assert paths[..i + 1] == paths[..i] + [path];
      if path !in after {
        var j :| 0 <= j < i && paths[j] == path;
        assert !CleanUpTo(paths, faults, |paths|) by {
          assert j < i < |paths| && paths[j] == paths[i] && paths[j] !in faults;
        }
        return Raised(path, denied), after;
      }
      if path in faults && faults[path] == OtherError {
        return Raised(path, denied), after;
      }
      CleanStep(paths, faults, i);
      if path in faults {
        denied := denied + [path];
      } else {
        after := after - {path};
      }
      i := i + 1;
    }
    assert paths[..i] == paths;
    outcome := Finished(denied);
  }

  lemma CleanStep(paths: seq<string>, faults: map<string, Fault>, i: nat)
    requires i < |paths| && CleanUpTo(paths, faults, i)
    requires paths[i] in faults ==> faults[paths[i]] == PermissionDenied
    requires forall j :: 0 <= j < i && paths[j] == paths[i] ==> paths[i] in faults
    ensures CleanUpTo(paths, faults, i + 1)
  {
  }

  /** `delete(to_delete)`. `confirmed` is the answer to the confirmation, which is asked only
      when some listed path exists. */
  method Delete(toDelete: seq<string>, files: set<string>, confirmed: bool, faults: map<string, Fault>)
    returns (outcome: Outcome, after: set<string>)
    ensures Existing(toDelete, files) == [] ==> outcome == NothingToDelete && after == files
    ensures Existing(toDelete, files) != [] && !confirmed ==> outcome == Declined && after == files
    ensures outcome.Finished? <==> Existing(toDelete, files) != [] && confirmed && Clean(Existing(toDelete, files), faults)
    ensures after <= files
    ensures forall p :: p in files && p !in after ==> p in toDelete && p !in faults
    ensures outcome.Finished? ==> forall p :: p in toDelete && p in files ==> (p in after <==> p in faults)
    ensures outcome.Finished? ==> forall p :: p in outcome.denied <==> p in toDelete && p in files && p in faults
    ensures outcome.Raised? ==> (outcome.path in toDelete && outcome.path in files &&
      ((outcome.path in faults && faults[outcome.path] == OtherError) || (outcome.path !in faults && outcome.path !in after)))
  {
    var existing := Existing(toDelete, files);
    if existing == [] {
      return NothingToDelete, files;
    }
    if !confirmed {
      return Declined, files;
    }
    outcome, after := RemoveEach(existing, files, faults);
  }

  // ---------------------------------------------------------------------------
  // delete_elder / delete_unused over all rows
  // ---------------------------------------------------------------------------

  /** The paths the rows use: what `get_elders`/`get_unused` return first. */
  function UsedPaths(rows: seq<Row>): (keep: set<string>)
    ensures forall p :: p in keep <==> exists i :: 0 <= i < |rows| && rows[i].parm.expanded == p
  {
    set i | 0 <= i < |rows| :: rows[i].parm.expanded
  }

  /** A path some row nominates: the path of one of its found versions that the query selects. */
  predicate Nominated(rows: seq<Row>, q: Query, p: string)
    requires forall i :: 0 <= i < |rows| ==> Scanned(rows[i])
  {
    exists i :: 0 <= i < |rows| && p in GetPlan(rows[i], q).candidates
  }

  /** The candidate lists of the rows, one per row, in row order. */
  function PlanLists(rows: seq<Row>, q: Query): (lists: seq<seq<string>>)
    requires forall i :: 0 <= i < |rows| ==> Scanned(rows[i])
    ensures |lists| == |rows|
    ensures forall i :: 0 <= i < |rows| ==> lists[i] == GetPlan(rows[i], q).candidates
  {
    seq(|rows|, i requires 0 <= i < |rows| => GetPlan(rows[i], q).candidates)
  }

  /** Every path on some list. */
  function Union(lists: seq<seq<string>>): set<string> {
    set i, p | 0 <= i < |lists| && p in lists[i] :: p
  }

  /** One more list adds its paths to the union. */
  lemma UnionStep(lists: seq<seq<string>>, i: nat)
    requires i < |lists|
    ensures Union(lists[..i + 1]) == Union(lists[..i]) + (set p | p in lists[i])
  {
    var before, after := lists[..i], lists[..i + 1];
    forall p ensures p in Union(after) <==> p in Union(before) || p in lists[i] {
      if p in Union(after) {
        var j :| 0 <= j < i + 1 && p in after[j];
        if j < i {
          assert before[j] == after[j];
        }
      }
      if p in Union(before) {
        var j :| 0 <= j < i && p in before[j];
        assert after[j] == before[j];
      }
      if p in lists[i] {
        assert after[i] == lists[i];
      }
    }
  }

  /** The union of every row's candidates. */
  function Nominations(rows: seq<Row>, q: Query): (s: set<string>)
    requires forall i :: 0 <= i < |rows| ==> Scanned(rows[i])
    ensures forall p :: p in s <==> Nominated(rows, q, p)
  {
    Union(PlanLists(rows, q))
  }

  /** The set the batch `delete_elder`/`delete_unused` hands to `delete`: everything some row
      nominates, less everything some row uses. */
  function BatchPlan(rows: seq<Row>, q: Query): (doomed: set<string>)
    requires forall i :: 0 <= i < |rows| ==> Scanned(rows[i])
    ensures forall p :: p in doomed <==> Nominated(rows, q, p) && p !in UsedPaths(rows)
  {
    Nominations(rows, q) - UsedPaths(rows)
  }

  /** The loop of the batch `delete_elder`/`delete_unused`: each row's plan adds its candidates
      to the delete set and its kept path to the save set, and the saved paths are taken out of
      the delete set at the end. */
  method CollectBatch(rows: seq<Row>, q: Query) returns (doomed: set<string>)
    requires forall i :: 0 <= i < |rows| ==> Scanned(rows[i])
    ensures forall p :: p in doomed <==>
      (exists i :: 0 <= i < |rows| && p in GetPlan(rows[i], q).candidates) &&
      (forall i :: 0 <= i < |rows| ==> rows[i].parm.expanded != p)
    ensures doomed == BatchPlan(rows, q)
  {
    ghost var lists := PlanLists(rows, q);
    var toSave: set<string> := {};
    var toDelete: set<string> := {};
    for i := 0 to |rows|
      invariant toDelete == Union(lists[..i])
      invariant toSave == UsedPaths(rows[..i])
    {
      var plan := GetPlan(rows[i], q);
      UnionStep(lists, i);
      UsedPathsStep(rows, i);
      toDelete := toDelete + (set p | p in plan.candidates);
      toSave := toSave + {plan.keep};
    }
    assert lists[..|rows|] == lists && rows[..|rows|] == rows;
    BatchPlanMeaning(rows, q, toDelete, toSave);
    doomed := toDelete - toSave;
  }

  /** The rows up to `i` use what the rows before `i` do and what row `i` does. */
  lemma UsedPathsStep(rows: seq<Row>, i: nat)
    requires i < |rows|
    ensures UsedPaths(rows[..i + 1]) == UsedPaths(rows[..i]) + {rows[i].parm.expanded}
  {
    var before, after := rows[..i], rows[..i + 1];
    forall p ensures p in UsedPaths(after) <==> p in UsedPaths(before) || p == rows[i].parm.expanded {
      if p in UsedPaths(after) {
        var j :| 0 <= j < i + 1 && after[j].parm.expanded == p;
        if j < i {
          assert before[j] == after[j];
        }
      }
      if p in UsedPaths(before) {
        var j :| 0 <= j < i && before[j].parm.expanded == p;
        assert after[j] == before[j];
      }
      if p == rows[i].parm.expanded {
        assert after[i] == rows[i];
      }
    }
  }

  /** The delete set of every row less the save set of every row is the batch plan. */
  lemma BatchPlanMeaning(rows: seq<Row>, q: Query, toDelete: set<string>, toSave: set<string>)
    requires forall k :: 0 <= k < |rows| ==> Scanned(rows[k])
    requires toDelete == Nominations(rows, q) && toSave == UsedPaths(rows)
    ensures forall p :: (p in toDelete && p !in toSave) <==>
      (exists i :: 0 <= i < |rows| && p in GetPlan(rows[i], q).candidates) &&
      (forall i :: 0 <= i < |rows| ==> rows[i].parm.expanded != p)
    ensures toDelete - toSave == BatchPlan(rows, q)
  {
  }

  /** Deleting the elders never asks for more than deleting the unused versions. */
  lemma BatchEldersWithinUnused(rows: seq<Row>)
    requires forall i :: 0 <= i < |rows| ==> Scanned(rows[i])
    ensures BatchPlan(rows, Elders) <= BatchPlan(rows, Unused)
  {
    forall p | p in BatchPlan(rows, Elders) ensures p in BatchPlan(rows, Unused) {
      var i :| 0 <= i < |rows| && p in GetPlan(rows[i], Elders).candidates;
      EldersWithinUnused(rows[i]);
    }
  }

  /** The batch command: plan, then `delete` with the plan in the order the set is iterated,
      which Python leaves unspecified and is a parameter here. No file a row uses is removed. */
  method BatchDelete(rows: seq<Row>, q: Query, order: seq<string>, files: set<string>,
                     confirmed: bool, faults: map<string, Fault>)
    returns (outcome: Outcome, after: set<string>)
    requires forall i :: 0 <= i < |rows| ==> Scanned(rows[i])
    requires forall p :: p in order <==> p in BatchPlan(rows, q)
    requires forall j, k :: 0 <= j < k < |order| ==> order[j] != order[k]
    ensures after <= files
    ensures forall i :: 0 <= i < |rows| && rows[i].parm.expanded in files ==> rows[i].parm.expanded in after
    ensures forall p :: p in files && p !in after ==> Nominated(rows, q, p) && p !in faults
    ensures outcome.Finished? ==> forall p :: p in files && Nominated(rows, q, p) && p !in UsedPaths(rows) && p !in faults ==> p !in after
  {
    outcome, after := Delete(order, files, confirmed, faults);
  }

  // ---------------------------------------------------------------------------
  // Row.delete_elder / Row.delete_unused
  // ---------------------------------------------------------------------------

  /** The per-row command as written: `delete(self.get_elders()[1])`, the row's own candidates
      with nothing subtracted. */
  method RowDeleteAsWritten(row: Row, q: Query, files: set<string>, confirmed: bool, faults: map<string, Fault>)
    returns (outcome: Outcome, after: set<string>)
    requires Scanned(row)
    ensures after <= files
    ensures row.parm.expanded in files ==> row.parm.expanded in after
    ensures forall p :: p in files && p !in after ==> p in GetPlan(row, q).candidates
    ensures outcome.Finished? ==>
      forall p :: p in GetPlan(row, q).candidates && p in files && p !in faults ==> p !in after
  {
    KeepNotCandidate(row, q);
    outcome, after := Delete(GetPlan(row, q).candidates, files, confirmed, faults);
  }

  /** Two rows reading two versions of the same asset: the row on the newer version nominates
      the file the other row uses, so its per-row delete of elders (or of unused versions)
      removes a file the scene still references. */
  lemma RowDeleteRemovesOtherKeep(a: Row, b: Row)
    requires Scanned(a) && Scanned(b) && a.template == b.template
    requires a.fields == b.fields["version" := StrVal(Padded(a.version))]
    requires a.version < b.version && a.version in b.versions
    ensures a.parm.expanded in GetPlan(b, Elders).candidates
    ensures a.parm.expanded in GetPlan(b, Unused).candidates
  {
    SameAssetPath(a, b);
    assert Selects(Elders, a.version, b.version) && Selects(Unused, a.version, b.version);
  }

  /** The path of another version of the same asset is the path the other row reads. */
  lemma SameAssetPath(a: Row, b: Row)
    requires Scanned(a) && Scanned(b) && a.template == b.template
    requires a.fields == b.fields["version" := StrVal(Padded(a.version))]
    ensures PathOf(b, a.version) == a.parm.expanded
  {
    PathOfFields(b, a.version);
    PaddedText(b.fields, a.version);
    StringsUpdate(b.fields, "version", Padded(a.version));
  }

  lemma StringsUpdate(f: Fields, n: string, x: string)
    ensures Strings(f[n := StrVal(x)]) == Strings(f)[n := x]
  {
  }

  /** The same per-row command with every path some row uses subtracted, as the batch
      commands do: the row's candidates less the kept paths. */
  function RowPlan(rows: seq<Row>, i: nat, q: Query): (doomed: set<string>)
    requires forall k :: 0 <= k < |rows| ==> Scanned(rows[k])
    requires i < |rows|
    ensures forall p :: p in doomed <==> p in GetPlan(rows[i], q).candidates && p !in UsedPaths(rows)
    ensures doomed <= BatchPlan(rows, q)
  {
    (set p | p in GetPlan(rows[i], q).candidates) - UsedPaths(rows)
  }

  /** The corrected per-row command: it removes only the row's candidates and never a file
      any row uses. */
  method RowDelete(rows: seq<Row>, i: nat, q: Query, order: seq<string>, files: set<string>,
                   confirmed: bool, faults: map<string, Fault>)
    returns (outcome: Outcome, after: set<string>)
    requires forall k :: 0 <= k < |rows| ==> Scanned(rows[k])
    requires i < |rows|
    requires forall p :: p in order <==> p in RowPlan(rows, i, q)
    ensures after <= files
    ensures forall k :: 0 <= k < |rows| && rows[k].parm.expanded in files ==> rows[k].parm.expanded in after
    ensures forall p :: p in files && p !in after ==> p in GetPlan(rows[i], q).candidates
  {
    outcome, after := Delete(order, files, confirmed, faults);
  }
}

=== FILE: discovery.dfy ===
/** The version scan of `Row.__init__` (breakdown/logic.py): the regular-expression rewrite
    of the expanded path into a glob pattern, the glob over the existing paths, and the
    reading of a version number back from every hit. The filesystem is a listing of the
    paths that exist, passed in. */
module Discovery {
  import opened Results
  import opened Text
  import opened TemplateWrapper

  /** One position of a glob pattern: a character that must be present, or the class `[0-9]`. */
  datatype GlobItem = Exact(c: char) | AnyDigit

  /** What `v[0-9][0-9][0-9]` matches. */
  const VersionGlob: seq<GlobItem> := [Exact('v'), AnyDigit, AnyDigit, AnyDigit]

  /** The length of the run of ASCII digits at the start of `s`. */
  function DigitRun(s: string): (n: nat)
    ensures n <= |s|
    ensures forall i :: 0 <= i < n ==> IsDigit(s[i])
    ensures n < |s| ==> !IsDigit(s[n])
  {
    if s == [] || !IsDigit(s[0]) then 0 else 1 + DigitRun(s[1..])
  }

  /** The regular expression `v\d+` matches here: a `v` followed by at least one digit. */
  predicate VersionAt(s: string) {
    |s| >= 2 && s[0] == 'v' && IsDigit(s[1])
  }

  /** `re.sub(r"v\d+", "v[0-9][0-9][0-9]", path)`: scanning left to right, every `v` followed
      by a run of digits becomes `v` and three digit classes, however long the run; every
      other character stands for itself. */
  function Rewrite(s: string): (items: seq<GlobItem>)
    ensures s != [] ==> items != [] && items[0] == Exact(s[0])
    decreases |s|
  {
    if s == [] then []
    else if VersionAt(s) then VersionGlob + Rewrite(s[1 + DigitRun(s[1..])..])
    else [Exact(s[0])] + Rewrite(s[1..])
  }

  predicate ItemMatches(item: GlobItem, c: char) {
    match item
    case Exact(d) => c == d
    case AnyDigit => IsDigit(c)
  }

  /** `path` matches the glob pattern, position by position. */
  predicate Matches(path: string, items: seq<GlobItem>) {
    |path| == |items| && forall k :: 0 <= k < |path| ==> ItemMatches(items[k], path[k])
  }

  lemma MatchesAppend(a: string, b: string, x: seq<GlobItem>, y: seq<GlobItem>)
    requires |a| == |x|
    ensures Matches(a + b, x + y) <==> Matches(a, x) && Matches(b, y)
  {
    if Matches(a + b, x + y) {
      assert forall k :: 0 <= k < |a| ==> (a + b)[k] == a[k] && (x + y)[k] == x[k];
      assert forall k :: 0 <= k < |b| ==> (a + b)[|a| + k] == b[k] && (x + y)[|a| + k] == y[k];
    }
  }

  /** Every `v<digits>` run that the scan meets has exactly three digits. */
  predicate ThreeDigitRuns(s: string)
    decreases |s|
  {
    if s == [] then true
    else if VersionAt(s) then DigitRun(s[1..]) == 3 && ThreeDigitRuns(s[4..])
    else ThreeDigitRuns(s[1..])
  }

  /** A path is found by its own glob pattern exactly when each of its `v<digits>` runs has
      three digits: a version of four or more digits, and equally a `v1` or `v22` anywhere
      else in the path, makes the pattern miss the path itself. */
  lemma {:induction false} SelfMatch(s: string)
    ensures Matches(s, Rewrite(s)) <==> ThreeDigitRuns(s)
    decreases |s|
  {
    if s == [] {
    } else if VersionAt(s) {
      var n := DigitRun(s[1..]);
      var rest := s[1 + n..];
      if n == 3 {
        SelfMatch(rest);
        assert s == s[..4] + rest;
        MatchesAppend(s[..4], rest, VersionGlob, Rewrite(rest));
        assert Matches(s[..4], VersionGlob);
      } else {
        SelfMatchLongRun(s);
      }
    } else {
      SelfMatch(s[1..]);
      assert s == [s[0]] + s[1..];
      MatchesAppend([s[0]], s[1..], [Exact(s[0])], Rewrite(s[1..]));
    }
  }

  /** A run of other than three digits after a `v` makes the pattern miss the path. */
  lemma SelfMatchLongRun(s: string)
    requires VersionAt(s) && DigitRun(s[1..]) != 3
    ensures !Matches(s, Rewrite(s))
  {
    var n := DigitRun(s[1..]);
    var rest := s[1 + n..];
    var items := Rewrite(s);
    assert items == VersionGlob + Rewrite(rest);
    if n < 3 {
      if |s| == |items| {
        assert 1 + n < |s|;
        assert s[1 + n] == s[1..][n];
        assert items[1 + n] == AnyDigit;
      }
    } else if rest != [] && |s| == |items| {
      assert items[4] == Exact(rest[0]);
      assert s[4] == s[1..][3];
      assert rest[0] == s[1..][n];
    }
  }

  lemma {:induction false} DigitRunSplit(a: string, b: string)
    requires b == [] || !IsDigit(b[0])
    ensures DigitRun(a + b) == DigitRun(a)
  {
    if a != [] {
      assert (a + b)[0] == a[0] && (a + b)[1..] == a[1..] + b;
      DigitRunSplit(a[1..], b);
    } else {
      assert a + b == b;
    }
  }

  /** The scan restarts at a character that is not a digit: what comes before it and what
      comes after it are rewritten independently. */
  lemma {:induction false} RewriteSplit(a: string, b: string)
    requires b == [] || !IsDigit(b[0])
    ensures Rewrite(a + b) == Rewrite(a) + Rewrite(b)
    decreases |a|
  {
    var s := a + b;
    if a == [] {
      assert s == b;
    } else if VersionAt(s) {
      assert s[1..] == a[1..] + b;
      DigitRunSplit(a[1..], b);
      var n := DigitRun(a[1..]);
      RewriteSplit(a[1 + n..], b);
      RewriteSplitAtVersion(a, b);
    } else {
      RewriteSplit(a[1..], b);
      RewriteSplitAtCharacter(a, b);
    }
  }

  lemma RewriteSplitAtVersion(a: string, b: string)
    requires (b == [] || !IsDigit(b[0])) && a != [] && VersionAt(a + b)
    requires DigitRun(a[1..] + b) == DigitRun(a[1..])
    requires Rewrite(a[1 + DigitRun(a[1..])..] + b) == Rewrite(a[1 + DigitRun(a[1..])..]) + Rewrite(b)
    ensures Rewrite(a + b) == Rewrite(a) + Rewrite(b)
  {
    var s := a + b;
    var n := DigitRun(a[1..]);
    VersionAtPrefix(a, b);
    TailAfterRun(a, b, n);
    UnfoldVersion(a);
    UnfoldVersion(s);
    Glue(Rewrite(s), Rewrite(a), Rewrite(a[1 + n..]), Rewrite(b), Rewrite(s[1 + n..]));
  }

  lemma Glue(whole: seq<GlobItem>, front: seq<GlobItem>, head: seq<GlobItem>, tail: seq<GlobItem>, after: seq<GlobItem>)
    requires whole == VersionGlob + after && after == head + tail && front == VersionGlob + head
    ensures whole == front + tail
  {
  }

  lemma VersionAtPrefix(a: string, b: string)
    requires (b == [] || !IsDigit(b[0])) && a != [] && VersionAt(a + b)
    ensures |a| >= 2 && VersionAt(a)
  {
  }

  lemma TailAfterRun(a: string, b: string, n: nat)
    requires |a| >= 2 && n == DigitRun(a[1..]) && DigitRun(a[1..] + b) == n
    ensures DigitRun((a + b)[1..]) == n && (a + b)[1 + n..] == a[1 + n..] + b
  {
    assert (a + b)[1..] == a[1..] + b;
  }

  lemma UnfoldVersion(x: string)
    requires VersionAt(x)
    ensures Rewrite(x) == VersionGlob + Rewrite(x[1 + DigitRun(x[1..])..])
  {
  }

  lemma RewriteSplitAtCharacter(a: string, b: string)
    requires a != [] && !VersionAt(a + b)
    requires Rewrite(a[1..] + b) == Rewrite(a[1..]) + Rewrite(b)
    ensures Rewrite(a + b) == Rewrite(a) + Rewrite(b)
  {
    var s := a + b;
    assert !VersionAt(a) by {
      if |a| >= 2 {
        assert s[0] == a[0] && s[1] == a[1];
      }
    }
    assert s[0] == a[0] && s[1..] == a[1..] + b;
    UnfoldCharacter(a);
    UnfoldCharacter(s);
    GlueCharacter(Rewrite(s), Rewrite(a), [Exact(a[0])], Rewrite(a[1..]), Rewrite(b), Rewrite(s[1..]));
  }

  lemma UnfoldCharacter(x: string)
    requires x != [] && !VersionAt(x)
    ensures Rewrite(x) == [Exact(x[0])] + Rewrite(x[1..])
  {
  }

  lemma GlueCharacter(whole: seq<GlobItem>, front: seq<GlobItem>, first: seq<GlobItem>,
                      head: seq<GlobItem>, tail: seq<GlobItem>, after: seq<GlobItem>)
    requires whole == first + after && after == head + tail && front == first + head
    ensures whole == front + tail
  {
  }

  /** The same restart for the three-digit condition. */
  lemma {:induction false} RunsSplit(a: string, b: string)
    requires b == [] || !IsDigit(b[0])
    ensures ThreeDigitRuns(a + b) == (ThreeDigitRuns(a) && ThreeDigitRuns(b))
    decreases |a|
  {
    var s := a + b;
    if a == [] {
      assert s == b;
    } else if VersionAt(s) {
      assert |a| >= 2 && VersionAt(a);
      assert s[1..] == a[1..] + b;
      DigitRunSplit(a[1..], b);
      if DigitRun(a[1..]) == 3 {
        assert s[4..] == a[4..] + b;
        RunsSplit(a[4..], b);
      }
    } else {
      assert !VersionAt(a) by {
        if |a| >= 2 {
          assert s[0] == a[0] && s[1] == a[1];
        }
      }
      assert s[1..] == a[1..] + b;
      RunsSplit(a[1..], b);
    }
  }

  lemma {:induction false} DigitRunAll(d: string)
    requires AllDigits(d)
    ensures DigitRun(d) == |d|
  {
    if d != [] {
      DigitRunAll(d[1..]);
    }
  }

  /** A `v`, a run of digits and then a non-digit. */
  lemma VersionTail(d: string, b: string)
    requires AllDigits(d) && d != [] && (b == [] || !IsDigit(b[0]))
    ensures ThreeDigitRuns(['v'] + d + b) == (|d| == 3 && ThreeDigitRuns(b))
    ensures |d| == 3 ==> Rewrite(['v'] + d + b) == VersionGlob + Rewrite(b)
  {
    var s := ['v'] + d + b;
    assert s[1..] == d + b;
    assert VersionAt(s);
    DigitRunSplit(d, b);
    DigitRunAll(d);
    assert s[1 + |d|..] == b;
  }

  /** Whatever path a scan starts from, every path its pattern finds has only three-digit
      `v<digits>` runs: the pattern puts exactly three digit classes after each `v` it
      rewrites, and the character after them is the non-digit that ended the run. */
  lemma {:induction false} FoundHasThreeDigitRuns(s: string, p: string)
    requires Matches(p, Rewrite(s))
    ensures ThreeDigitRuns(p)
    decreases |s|
  {
    if s == [] {
      assert p == [];
    } else if VersionAt(s) {
      var rest := s[1 + DigitRun(s[1..])..];
      UnfoldVersion(s);
      assert p == p[..4] + p[4..];
      MatchesAppend(p[..4], p[4..], VersionGlob, Rewrite(rest));
      FoundHasThreeDigitRuns(rest, p[4..]);
      assert ItemMatches(VersionGlob[0], p[0]) && ItemMatches(VersionGlob[1], p[1]);
      assert ItemMatches(VersionGlob[2], p[2]) && ItemMatches(VersionGlob[3], p[3]);
      if rest != [] {
        assert ItemMatches(Rewrite(rest)[0], p[4]);
      }
      DigitRunThree(p[1..]);
    } else {
      UnfoldCharacter(s);
      assert p == [p[0]] + p[1..];
      MatchesAppend([p[0]], p[1..], [Exact(s[0])], Rewrite(s[1..]));
      FoundHasThreeDigitRuns(s[1..], p[1..]);
      if |p| >= 2 {
        assert ItemMatches(Rewrite(s[1..])[0], p[1]);
      }
    }
  }

  /** Three digits followed by a non-digit or the end make a run of three. */
  lemma DigitRunThree(x: string)
    requires |x| >= 3 && IsDigit(x[0]) && IsDigit(x[1]) && IsDigit(x[2])
    requires |x| == 3 || !IsDigit(x[3])
    ensures DigitRun(x) == 3
  {
    assert x[1..][1..][1..] == x[3..];
  }

  /** A version written with four or more digits is never found again: no scan pattern, its
      own path's included, has more than three digit classes after a `v`. This is why
      versions from 1000 on are not rediscovered. */
  lemma LongVersionNotFound(a: string, d: string, b: string)
    requires AllDigits(d) && |d| >= 4 && (b == [] || !IsDigit(b[0]))
    ensures !Matches(a + (['v'] + d + b), Rewrite(a + (['v'] + d + b)))
    ensures forall s :: !Matches(a + (['v'] + d + b), Rewrite(s))
  {
    var p := a + (['v'] + d + b);
    RunsSplit(a, ['v'] + d + b);
    VersionTail(d, b);
    SelfMatch(p);
    forall s | Matches(p, Rewrite(s))
      ensures false
    {
      FoundHasThreeDigitRuns(s, p);
    }
  }

  /** Around a three-digit version, the pattern finds every sibling with another three-digit
      version exactly when the rest of the path has no `v<digits>` run of another length. */
  lemma SiblingFound(a: string, d: string, e: string, b: string)
    requires AllDigits(d) && |d| == 3 && AllDigits(e) && |e| == 3
    requires b == [] || !IsDigit(b[0])
    ensures Matches(a + (['v'] + e + b), Rewrite(a + (['v'] + d + b))) <==>
      ThreeDigitRuns(a) && ThreeDigitRuns(b)
  {
    SamePattern(a, d, e, b);
    RunsSplit(a, ['v'] + e + b);
    VersionTail(e, b);
    SelfMatch(a + (['v'] + e + b));
  }

  /** Paths that differ only in a three-digit version have the same pattern. */
  lemma SamePattern(a: string, d: string, e: string, b: string)
    requires AllDigits(d) && |d| == 3 && AllDigits(e) && |e| == 3
    requires b == [] || !IsDigit(b[0])
    ensures Rewrite(a + (['v'] + d + b)) == Rewrite(a + (['v'] + e + b))
  {
    RewriteSplit(a, ['v'] + d + b);
    RewriteSplit(a, ['v'] + e + b);
    VersionTail(d, b);
    VersionTail(e, b);
  }

  /** The hits of `glob.glob(pattern)`: the existing paths the pattern matches, in listing order. */
  function Hits(listing: seq<string>, items: seq<GlobItem>): (hits: seq<string>)
    ensures forall h :: h in hits ==> h in listing && Matches(h, items)
    ensures forall p :: p in listing && Matches(p, items) ==> p in hits
    ensures |hits| <= |listing|
  {
    if listing == [] then []
    else (if Matches(listing[0], items) then [listing[0]] else []) + Hits(listing[1..], items)
  }

  /** The version number of a path: `int(template.parse(path)["version"])`. */
  function VersionOf(t: Template, path: string): (r: Result<int>)
    ensures r.Err? ==> r.error == PatternMismatch(path) || r.error.NotAnInteger?
  {
    var fields :- Parse(t, path);
    ParseInt(fields["version"].s)
  }

  /** In a template whose placeholders are each followed by `/`, a path formatted with an
      integer version reads back as that version. */
  lemma VersionOfFormat(t: Template, fields: Fields, n: int)
    requires Separated(t.tokens)
    requires Keys(t.tokens) <= fields.Keys
    requires fields["version"] == IntVal(n)
    requires forall k :: k in Keys(t.tokens) ==> Parseable(ValueStr(PadVersion(fields)[k]))
    ensures VersionOf(t, Format(t, fields).value) == Ok(n)
  {
    ParseFormat(t, fields);
  }

  /** The versions of the hits, each hit with `\` turned into `/` first; the first hit whose
      parse or int() fails aborts the scan with that error. */
  function HitVersions(t: Template, hits: seq<string>): (r: Result<seq<int>>)
    ensures r.Ok? <==> forall i :: 0 <= i < |hits| ==> VersionOf(t, Normalize(hits[i])).Ok?
    ensures r.Ok? ==> |r.value| == |hits|
    ensures r.Ok? ==> forall i :: 0 <= i < |hits| ==> VersionOf(t, Normalize(hits[i])) == Ok(r.value[i])
    ensures r.Err? ==> exists i :: (0 <= i < |hits| && VersionOf(t, Normalize(hits[i])) == Err(r.error)
      && forall j :: 0 <= j < i ==> VersionOf(t, Normalize(hits[j])).Ok?)
  {
    if hits == [] then Ok([])
    else
      var v :- VersionOf(t, Normalize(hits[0]));
      var rest :- HitVersions(t, hits[1..]);
      Ok([v] + rest)
  }
}

=== FILE: houdini.dfy ===
/** files/houdini.py: the string rules of the host layer. The host itself (the scene's
    file references, parameter evaluation and assignment, the reference chain) is outside
    the model; the values the code reads from it are parameters here. */
module Houdini {
  import opened Text

  /** `PathParm`: a file parameter of the scene. `parm` is its full parameter path
      (`node/parm`), which is its identity; `node` is the name of the node holding it. */
  datatype PathParm = PathParm(
    parm: string,
    node: string,
    raw: string,        // the unexpanded value, variables and expressions kept
    expanded: string,   // the evaluated value
    animated: bool)     // time dependent or scripted

  // ---------------------------------------------------------------------------
  // set_path
  // ---------------------------------------------------------------------------

  /** One gated step of `set_path`: when enabled, every occurrence of `text` becomes `variable`. */
  function Swap(path: string, enabled: bool, text: string, variable: string): (r: string)
    ensures !enabled ==> r == path
  {
    if enabled then Replace(path, text, variable) else path
  }

  /** The value `PathParm.set_path` writes into the parameter. `job` and `hip` are the
      expanded `$JOB` and `$HIP`; the node name stands for `$OS`. The swaps run in this order,
      each on the result of the previous one. */
  function SetPath(path: string, job: string, hip: string, node: string,
                   withJob: bool, withHip: bool, withOs: bool): (written: string)
    ensures !withJob && !withHip && !withOs ==> written == path
    ensures !withHip && !withOs ==> written == Swap(path, withJob, job, "$JOB")
  {
    var afterJob := Swap(path, withJob, job, "$JOB");
    var afterHip := Swap(afterJob, withHip, hip, "$HIP");
    Swap(afterHip, withOs, node, "$OS")
  }

  /** With only `with_job` and a non-empty `$JOB`, the written value is the path cut at every
      occurrence of `$JOB`'s text, joined back with the variable; no piece holds the text. */
  lemma SetPathJobOnly(path: string, job: string, hip: string, node: string)
    requires job != []
    ensures var written := SetPath(path, job, hip, node, true, false, false);
      var pieces := Split(path, job);
      written == Join(pieces, "$JOB") && forall k :: 0 <= k < |pieces| ==> !Occurs(job, pieces[k])
  {
    ReplaceIsJoinOfSplit(path, job, "$JOB");
    SplitPiecesAreFree(path, job);
  }

  /** A step whose text does not occur in the path leaves it unchanged. */
  lemma SwapAbsent(path: string, text: string, variable: string)
    requires text != [] && !Occurs(text, path)
    ensures Swap(path, true, text, variable) == path
  {
    ReplaceWithoutOccurrence(path, text, variable);
  }

  /** The order is observable: when `$HIP` lies inside `$JOB`'s directory, the `$JOB` swap
      runs first and consumes the `$HIP` text, so `$HIP` never appears; swapping `$HIP` first
      would have kept it. */
  lemma SetPathOrderMatters()
    ensures SetPath("/p/s/f", "/p", "/p/s", "n", true, true, false) == "$JOB/s/f"
    ensures Swap(Swap("/p/s/f", true, "/p/s", "$HIP"), true, "/p", "$JOB") == "$HIP/f"
  {
    JobFirst();
    HipFirst();
  }

  lemma JobFirst()
    ensures Replace("/p/s/f", "/p", "$JOB") == "$JOB/s/f"
    ensures Replace("$JOB/s/f", "/p/s", "$HIP") == "$JOB/s/f"
  {
    JobSwap();
    AbsentChar("/p/s", "$JOB/s/f", 1);
    ReplaceWithoutOccurrence("$JOB/s/f", "/p/s", "$HIP");
  }

  lemma JobSwap()
    ensures Replace("/p/s/f", "/p", "$JOB") == "$JOB/s/f"
  {
    var path := "/p/s/f";
    assert StartsWith(path, "/p") && path[2..] == "/s/f";
    AbsentChar("/p", "/s/f", 1);
    ReplaceWithoutOccurrence("/s/f", "/p", "$JOB");
  }

  lemma HipFirst()
    ensures Replace("/p/s/f", "/p/s", "$HIP") == "$HIP/f"
    ensures Replace("$HIP/f", "/p", "$JOB") == "$HIP/f"
  {
    var path := "/p/s/f";
    assert StartsWith(path, "/p/s") && path[4..] == "/f";
    AbsentChar("/p/s", "/f", 1);
    ReplaceWithoutOccurrence("/f", "/p/s", "$HIP");
    AbsentChar("/p", "$HIP/f", 1);
    ReplaceWithoutOccurrence("$HIP/f", "/p", "$JOB");
  }

  // ---------------------------------------------------------------------------
  // get_parms
  // ---------------------------------------------------------------------------

  /** Python's `s[-n:]` for n >= 1: the last n characters, or all of `s` when it is shorter. */
  function Last(s: string, n: nat): (r: string)
    requires n >= 1
    ensures |r| == if |s| < n then |s| else n
  {
    if |s| < n then s else s[|s| - n..]
  }

  /** Comparing the slice `s[-len(t):]` with `t` is the same as asking whether `s` ends with `t`. */
  lemma LastIsSuffixTest(s: string, t: string)
    requires t != []
    ensures Last(s, |t|) == t <==> EndsWith(s, t)
  {
  }

  /** The references `get_parms` skips: the raw value is exactly `$HIP` (a folder), or ends
      in `.py` or `.json`. */
  predicate Skipped(raw: string) {
    raw == "$HIP" || Last(raw, 3) == ".py" || Last(raw, 5) == ".json"
  }

  /** A reference `get_parms` keeps: not skipped and not animated. */
  predicate Kept(p: PathParm) {
    !Skipped(p.raw) && !p.animated
  }

  lemma SkippedMeaning(raw: string)
    ensures Skipped(raw) <==> raw == "$HIP" || EndsWith(raw, ".py") || EndsWith(raw, ".json")
  {
    LastIsSuffixTest(raw, ".py");
    LastIsSuffixTest(raw, ".json");
  }

  /** `get_parms`: the kept references, gathered in a set whose equality is the parameter
      path. Adding an element equal to one already present leaves a Python set unchanged, so
      for each parameter path the first kept reference is the one that stays. */
  function CollectParms(refs: seq<PathParm>): (kept: map<string, PathParm>)
    ensures forall k :: k in kept ==> kept[k].parm == k && Kept(kept[k]) && kept[k] in refs
  {
    if refs == [] then map[]
    else
      var before := CollectParms(refs[..|refs| - 1]);
      var last := refs[|refs| - 1];
      if Kept(last) && last.parm !in before then before[last.parm := last] else before
  }

  /** Every kept reference has its parameter path in the result: nothing kept is lost. */
  lemma {:induction false} CollectHasAllKept(refs: seq<PathParm>)
    ensures forall i :: 0 <= i < |refs| && Kept(refs[i]) ==> refs[i].parm in CollectParms(refs)
  {
    if refs != [] {
      var init := refs[..|refs| - 1];
      CollectHasAllKept(init);
      assert forall i :: 0 <= i < |refs| - 1 ==> init[i] == refs[i];
    }
  }

  /** The element that stays for a parameter path is its first kept reference. */
  lemma {:induction false} CollectFirstWins(refs: seq<PathParm>, i: nat)
    requires i < |refs| && Kept(refs[i])
    requires forall j :: 0 <= j < i && Kept(refs[j]) ==> refs[j].parm != refs[i].parm
    ensures refs[i].parm in CollectParms(refs) && CollectParms(refs)[refs[i].parm] == refs[i]
  {
    var init := refs[..|refs| - 1];
    var before := CollectParms(init);
    assert forall j :: 0 <= j < |refs| - 1 ==> init[j] == refs[j];
    if i < |refs| - 1 {
      CollectFirstWins(init, i);
    } else {
      assert refs[i].parm !in before;
    }
  }
}

=== FILE: results.dfy ===
/** Failure-compatible result types shared by every module of the model.
    The error constructors are the exceptions the Python code lets escape. */
module Results {

  /** The exceptions of the modelled code that abort an operation. */
  datatype Error =
    | PatternMismatch(path: string)    // the template library's parse error
    | MissingField(field: string)      // the template library's format error
    | InvalidTemplate(name: string)    // ValueError raised by the template wrapper's constructor
    | NotAnInteger(text: string)       // ValueError raised by int()

  /** Either a value or the exception that aborted its computation; usable with `:-`. */
  datatype Result<+T> = Ok(value: T) | Err(error: Error) {

    predicate IsFailure() {
      Err?
    }

    function PropagateFailure<U>(): Result<U>
      requires Err?
    {
      Err(error)
    }

    function Extract(): T
      requires Ok?
    {
      value
    }
  }

  datatype Option<+T> = None | Some(value: T)
}

=== FILE: sorting.dfy ===
/** Python's `sorted()` on a list of ints, as an insertion sort. */
module Sorting {

  predicate Sorted(s: seq<int>) {
    forall i, j :: 0 <= i < j < |s| ==> s[i] <= s[j]
  }

  /** Inserts `x` before the first element that is not smaller than it. */
  function Insert(x: int, s: seq<int>): (r: seq<int>)
    requires Sorted(s)
    ensures Sorted(r)
    ensures multiset(r) == multiset(s) + multiset{x}
    ensures |r| == |s| + 1
  {
    if s == [] || x <= s[0] then
      SortedCons(x, s);
      [x] + s
    else
      var tail := Insert(x, s[1..]);
      assert s == [s[0]] + s[1..];
      BoundBelow(s[0], x, s[1..], tail);
      SortedCons(s[0], tail);
      [s[0]] + tail
  }

  /** A lower bound of a sorted list may be put in front of it. */
  lemma SortedCons(h: int, s: seq<int>)
    requires Sorted(s)
    requires s == [] || h <= s[0]
    ensures Sorted([h] + s)
  {
  }

  /** A bound below `x` and below every element of `rest` is below every element of a
      rearrangement of `rest` with `x` added. */
  lemma BoundBelow(h: int, x: int, rest: seq<int>, tail: seq<int>)
    requires h <= x
    requires forall k :: 0 <= k < |rest| ==> h <= rest[k]
    requires multiset(tail) == multiset(rest) + multiset{x}
    ensures tail == [] || h <= tail[0]
  {
    if tail != [] {
      assert tail[0] in multiset(tail);
      if tail[0] != x {
        assert tail[0] in multiset(rest);
        assert tail[0] in rest;
      }
    }
  }

  /** An ascending permutation of the input, duplicates kept. */
  function Sort(s: seq<int>): (r: seq<int>)
    ensures Sorted(r)
    ensures multiset(r) == multiset(s)
    ensures |r| == |s|
  {
    if s == [] then []
    else
      assert s == [s[0]] + s[1..];
      Insert(s[0], Sort(s[1..]))
  }

  /** In a sorted non-empty list the last element is the maximum. */
  lemma LastIsMax(s: seq<int>)
    requires Sorted(s) && s != []
    ensures forall x :: x in s ==> x <= s[|s| - 1]
  {
  }
}

=== FILE: templates.dfy ===
/** config/templates.py: the generic project template `<root>/{step}/{asset}/v{version}/{asset_basename}`.
    The root is the expanded `$JOB` value, passed in as a parameter. */
module Templates {
  import opened Results
  import opened Text
  import opened TemplateWrapper

  /** The tokens of the part of the generic pattern after the project root. */
  const LayoutTokens := [
    Lit('/'), Field("step"), Lit('/'), Field("asset"), Lit('/'),
    Lit('v'), Field("version"), Lit('/'), Field("asset_basename")]

  /** The part of the generic pattern after the project root,
      `/{step}/{asset}/v{version}/{asset_basename}`, written out from its tokens. */
  const Layout := Render(LayoutTokens)

  /** One literal token per character. */
  function Lits(s: string): (r: seq<Token>)
    ensures |r| == |s| && forall i :: 0 <= i < |s| ==> r[i] == Lit(s[i])
  {
    if s == [] then [] else [Lit(s[0])] + Lits(s[1..])
  }

  /** `get_generic_template()`: the template named "general" over the root followed by
      the layout. Building it never raises, whatever the root. */
  function GenericTemplate(root: string): (t: Template)
    ensures t.name == "general"
    ensures Render(t.tokens) == Normalize(root) + Layout
    ensures '{' !in root ==> t.tokens == Lits(Normalize(root)) + LayoutTokens
  {
    LayoutReadable();
    RootedTemplate("general", root, LayoutTokens)
  }

  /** `TemplateWrapper("general", root + layout)` never raises ValueError, whatever the root. */
  lemma GenericNeverRaises(root: string)
    ensures NewTemplate("general", root + Layout).Ok?
  {
    LayoutReadable();
    RootedAccepted("general", root, LayoutTokens);
  }

  /** Tokens with no backslash in a literal or a placeholder name. */
  predicate Slashed(ts: seq<Token>) {
    forall i :: 0 <= i < |ts| ==> ts[i] != Lit('\\') && (ts[i].Field? ==> '\\' !in ts[i].name)
  }

  /** A character that is no brace, no literal token and in no placeholder name does not
      occur in the rendered pattern. */
  lemma {:induction false} AbsentFromRender(ts: seq<Token>, c: char)
    requires c != '{' && c != '}'
    requires forall i :: 0 <= i < |ts| ==> ts[i] != Lit(c) && (ts[i].Field? ==> c !in ts[i].name)
    ensures c !in Render(ts)
  {
    if ts != [] {
      AbsentFromRender(ts[1..], c);
      assert c !in RenderToken(ts[0]);
    }
  }

  /** Normalising the rendering of backslash-free tokens changes nothing. */
  lemma NormalRender(ts: seq<Token>)
    requires Slashed(ts)
    ensures Normalize(Render(ts)) == Render(ts)
  {
    var s := Render(ts);
    AbsentFromRender(ts, '\\');
    forall i | 0 <= i < |s| ensures s[i] != '\\' {
      assert s[i] in s;
    }
  }

  lemma TokenizeLiteral(c: char, rest: string)
    requires c != '{'
    ensures Tokenize([c] + rest) == [Lit(c)] + Tokenize(rest)
  {
    assert ([c] + rest)[1..] == rest;
  }

  lemma {:induction false} IndexOfFirst(s: string, c: char, j: nat)
    requires j < |s| && s[j] == c && c !in s[..j]
    ensures IndexOf(s, c) == Some(j)
  {
    if j > 0 {
      assert s[0] in s[..j];
      assert s[1..][..j - 1] == s[1..j];
      assert forall i :: 1 <= i < j ==> s[i] in s[..j];
      IndexOfFirst(s[1..], c, j - 1);
    }
  }

  lemma TokenizePlaceholder(name: string, rest: string)
    requires PlainName(name)
    ensures Tokenize("{" + name + "}" + rest) == [Field(name)] + Tokenize(rest)
  {
    var s := "{" + name + "}" + rest;
    var j := |name|;
    assert s[1..] == name + "}" + rest;
    assert s[1..][..j] == name;
    IndexOfFirst(s[1..], '}', j);
    assert s[1..j + 1] == name;
    assert s[j + 2..] == rest;
  }

  /** A placeholder name the tokenizer reads back: non-empty and free of `}`. */
  predicate PlainName(n: string) {
    n != [] && '}' !in n
  }

  /** Tokens that the tokenizer reads back from their rendering: no literal `{`, and
      every placeholder name plain. */
  predicate Readable(ts: seq<Token>) {
    forall i :: 0 <= i < |ts| ==>
      match ts[i]
      case Lit(c) => c != '{'
      case Field(n) => PlainName(n)
  }

  lemma {:induction false} TokenizeRender(ts: seq<Token>)
    requires Readable(ts)
    ensures Tokenize(Render(ts)) == ts
  {
    if ts != [] {
      assert Readable(ts[1..]) by {
        forall i | 0 <= i < |ts| - 1 ensures ts[1..][i] == ts[i + 1] {}
      }
      TokenizeRender(ts[1..]);
      match ts[0]
      case Lit(c) =>
        TokenizeLiteral(c, Render(ts[1..]));
      case Field(n) =>
        TokenizePlaceholder(n, Render(ts[1..]));
    }
  }

  /** With a root free of `{`, the pattern is the root's characters followed by the tokens. */
  lemma TokenizeRooted(root: string, ts: seq<Token>)
    requires forall i :: 0 <= i < |root| ==> root[i] != '{'
    requires Readable(ts)
    ensures Tokenize(root + Render(ts)) == Lits(root) + ts
  {
    var lits := Lits(root);
    RenderLits(root);
    RenderAppend(lits, ts);
    var all := lits + ts;
    forall i | 0 <= i < |all|
      ensures match all[i]
        case Lit(c) => c != '{'
        case Field(n) => PlainName(n)
    {
      if i >= |lits| {
        assert all[i] == ts[i - |lits|];
      }
    }
    TokenizeRender(all);
  }

  lemma {:induction false} RenderLits(s: string)
    ensures Render(Lits(s)) == s
  {
    if s != [] {
      RenderLits(s[1..]);
      assert Lits(s) == [Lit(s[0])] + Lits(s[1..]);
      assert Lits(s)[1..] == Lits(s[1..]);
    }
  }

  /** The pattern text `/{name}`. */
  function Mark(name: string): string {
    "/{" + name + "}"
  }

  lemma KeysCons(t: Token, rest: seq<Token>)
    ensures Keys([t] + rest) == (if t.Field? then {t.name} else {}) + Keys(rest)
  {
    assert ([t] + rest)[1..] == rest;
  }

  /** The tokenizer at a `{` closed at once reads a literal `{` and goes on after it. */
  lemma TokenizeEmptyBraces(s: string)
    requires s != [] && s[0] == '{' && IndexOf(s[1..], '}') == Some(0)
    ensures Keys(Tokenize(s[1..])) <= Keys(Tokenize(s))
  {
    assert Tokenize(s) == [Lit('{')] + Tokenize(s[1..]);
    KeysCons(Lit('{'), Tokenize(s[1..]));
  }

  /** The tokenizer at a `{` closed later reads a placeholder and goes on after its `}`. */
  lemma TokenizeField(s: string, j: nat)
    requires s != [] && s[0] == '{' && IndexOf(s[1..], '}') == Some(j) && j > 0
    ensures j + 2 <= |s|
    ensures Keys(Tokenize(s[j + 2..])) <= Keys(Tokenize(s))
  {
    assert Tokenize(s) == [Field(s[1..j + 1])] + Tokenize(s[j + 2..]);
    KeysCons(Field(s[1..j + 1]), Tokenize(s[j + 2..]));
  }

  /** `tail` starts with the mark `/{name}`. */
  predicate MarkAt(tail: string, name: string) {
    && PlainName(name) && |tail| >= |name| + 3
    && tail[0] == '/' && tail[1] == '{' && tail[|name| + 2] == '}'
    && forall i :: 0 <= i < |name| ==> tail[i + 2] == name[i]
  }

  lemma MarkHolds(name: string, rest: string)
    requires PlainName(name)
    ensures MarkAt(Mark(name) + rest, name) && (Mark(name) + rest)[|name| + 3..] == rest
  {
  }

  /** The tokenizer at a `{` in front of a `/{name}` mark: either it skips to a later position
      `k` of the prefix, or the placeholder it reads ends at the mark's `}` and the tokens
      after the mark follow unchanged. */
  lemma BraceStep(x: string, name: string, tail: string) returns (k: nat)
    requires MarkAt(tail, name) && x != [] && x[0] == '{'
    ensures 0 < k <= |x| ==> Keys(Tokenize(x[k..] + tail)) <= Keys(Tokenize(x + tail))
    ensures k == 0 ==> Keys(Tokenize(tail[|name| + 3..])) <= Keys(Tokenize(x + tail))
    ensures k <= |x|
  {
    var j := MarkIsClosed(x, name, tail);
    if j == 0 {
      k := 1;
      BraceSkipEmpty(x, tail);
    } else if j + 2 <= |x| {
      k := j + 2;
      BraceSkipField(x, tail, j);
    } else {
      k := 0;
      BraceAtMark(x, name, tail, j);
    }
  }

  /** After a `{` at the head of `x`, the tokenizer finds a `}`: the mark has one. */
  lemma MarkIsClosed(x: string, name: string, tail: string) returns (j: nat)
    requires MarkAt(tail, name) && x != []
    ensures IndexOf((x + tail)[1..], '}') == Some(j)
  {
    var u := (x + tail)[1..];
    assert u == x[1..] + tail;
    assert u[|x| + |name| + 1] == tail[|name| + 2];
    j := FirstClose(u, |x| + |name| + 1);
  }

  /** A `{` closed at once: the tokenizer goes on with the rest of `x`. */
  lemma BraceSkipEmpty(x: string, tail: string)
    requires x != [] && x[0] == '{' && IndexOf((x + tail)[1..], '}') == Some(0)
    ensures Keys(Tokenize(x[1..] + tail)) <= Keys(Tokenize(x + tail))
  {
    var s := x + tail;
    TokenizeEmptyBraces(s);
    assert s[1..] == x[1..] + tail;
  }

  /** A `{` closed inside `x`: the tokenizer goes on after the placeholder, inside `x`. */
  lemma BraceSkipField(x: string, tail: string, j: nat)
    requires x != [] && x[0] == '{' && IndexOf((x + tail)[1..], '}') == Some(j)
    requires 0 < j && j + 2 <= |x|
    ensures Keys(Tokenize(x[j + 2..] + tail)) <= Keys(Tokenize(x + tail))
  {
    var s := x + tail;
    TokenizeField(s, j);
    assert s[j + 2..] == x[j + 2..] + tail;
  }

  /** A `{` not closed inside `x`: the placeholder ends at the mark's `}`, and the tokens
      after the mark follow. */
  lemma BraceAtMark(x: string, name: string, tail: string, j: nat)
    requires MarkAt(tail, name) && x != [] && x[0] == '{'
    requires IndexOf((x + tail)[1..], '}') == Some(j)
    requires j > 0 && j + 2 > |x|
    ensures Keys(Tokenize(tail[|name| + 3..])) <= Keys(Tokenize(x + tail))
  {
    var s := x + tail;
    assert s[1..] == x[1..] + tail;
    TokenizeField(s, j);
    ClosesAtMark(x, name, tail, j);
    assert s[j + 2..] == tail[|name| + 3..];
  }

  /** The first `}` of a text that has one at `close`. */
  lemma FirstClose(u: string, close: nat) returns (j: nat)
    requires close < |u| && u[close] == '}'
    ensures IndexOf(u, '}') == Some(j)
  {
    assert u[close] in u;
    j := IndexOf(u, '}').value;
  }

  /** A `}` searched for after the `{` at the head of `x` that is not inside `x` is the `}`
      of the mark. */
  lemma ClosesAtMark(x: string, name: string, tail: string, j: nat)
    requires MarkAt(tail, name) && x != []
    requires j < |x| - 1 + |tail|
    requires (x[1..] + tail)[j] == '}'
    requires '}' !in (x[1..] + tail)[..j]
    requires j + 2 > |x|
    ensures j == |x| + |name| + 1
  {
    var u := x[1..] + tail;
    var close := |x| + |name| + 1;
    assert u[close] == '}';
    assert u[|x| - 1] == '/' && u[|x|] == '{';
    forall i | |x| < i < close
      ensures u[i] != '}'
    {
      assert u[i] == name[i - |x| - 1];
      assert name[i - |x| - 1] in name;
    }
  }

  /** The placeholders after a `/{name}` survive whatever text comes before: an unclosed `{`
      in front of it is closed at the latest by the `}` of `{name}`. */
  lemma {:induction false} KeysSurviveRoot(x: string, name: string, rest: string)
    requires PlainName(name)
    ensures Keys(Tokenize(rest)) <= Keys(Tokenize(x + (Mark(name) + rest)))
    decreases |x|
  {
    var mark := Mark(name);
    var s := x + (mark + rest);
    var tail := "{" + name + "}" + rest;
    if x == [] {
      assert s == [ '/' ] + tail;
      TokenizeLiteral('/', tail);
      TokenizePlaceholder(name, rest);
    } else if x[0] != '{' {
      KeysSurviveRoot(x[1..], name, rest);
      assert s == [x[0]] + (x[1..] + (mark + rest));
      TokenizeLiteral(x[0], x[1..] + (mark + rest));
    } else {
      MarkHolds(name, rest);
      var k := BraceStep(x, name, mark + rest);
      if k > 0 {
        KeysSurviveRoot(x[k..], name, rest);
      }
    }
  }

  /** Tokens that, after any root, make a pattern the wrapper accepts: they start with a
      `/{name}` mark, read back from their rendering, hold no backslash and name `version`
      after the mark. */
  predicate Suffix(ts: seq<Token>) {
    && |ts| >= 2 && ts[0] == Lit('/') && ts[1].Field? && PlainName(ts[1].name)
    && Readable(ts) && Slashed(ts) && "version" in Keys(ts[2..])
  }

  /** A pattern `root` followed by suffix tokens builds a template whatever the root. */
  lemma RootedAccepted(name: string, root: string, ts: seq<Token>)
    requires Suffix(ts)
    ensures NewTemplate(name, root + Render(ts)).Ok?
  {
    NormalRender(ts);
    NormalizeAppend(root, Render(ts));
    var rest := Render(ts[2..]);
    assert ts[1..][1..] == ts[2..];
    assert Render(ts) == Mark(ts[1].name) + rest;
    assert Readable(ts[2..]) by {
      forall i | 0 <= i < |ts| - 2 ensures ts[2..][i] == ts[i + 2] {}
    }
    TokenizeRender(ts[2..]);
    KeysSurviveRoot(Normalize(root), ts[1].name, rest);
  }

  /** With a root free of `{`, the template's tokens are the root's characters and then the
      suffix tokens. */
  lemma RootedShape(name: string, root: string, ts: seq<Token>)
    requires Suffix(ts) && '{' !in root
    ensures Tokenize(Normalize(root + Render(ts))) == Lits(Normalize(root)) + ts
  {
    NormalRender(ts);
    NormalizeAppend(root, Render(ts));
    forall i | 0 <= i < |root| ensures Normalize(root)[i] != '{' {
      assert root[i] in root;
    }
    TokenizeRooted(Normalize(root), ts);
  }

  /** The template named `name` over `root` followed by suffix tokens. */
  function RootedTemplate(name: string, root: string, ts: seq<Token>): (t: Template)
    requires Suffix(ts)
    ensures t.name == name
    ensures Render(t.tokens) == Normalize(root) + Render(ts)
    ensures '{' !in root ==> t.tokens == Lits(Normalize(root)) + ts
  {
    RootedAccepted(name, root, ts);
    NormalRender(ts);
    NormalizeAppend(root, Render(ts));
    if '{' in root then NewTemplate(name, root + Render(ts)).value
    else
      RootedShape(name, root, ts);
      NewTemplate(name, root + Render(ts)).value
  }

  /** The layout is slash-separated, and `version` sits right after a literal `v` and right
      before a `/` — the `v<digits>/` shape the version scan looks for. */
  lemma LayoutReadable()
    ensures Suffix(LayoutTokens)
  {
    LayoutNamesPlain();
    LayoutHoldsVersion();
  }

  lemma LayoutNamesPlain()
    ensures Readable(LayoutTokens) && Slashed(LayoutTokens)
  {
    assert PlainName("step") && '\\' !in "step";
    assert PlainName("asset") && '\\' !in "asset";
    assert PlainName("version") && '\\' !in "version";
    assert PlainName("asset_basename") && '\\' !in "asset_basename";
  }

  lemma LayoutHoldsVersion()
    ensures "version" in Keys(LayoutTokens[2..])
  {
    var ts := LayoutTokens[2..];
    KeysAppend(ts[..4], ts[4..]);
    assert ts[..4] + ts[4..] == ts;
    assert ts[4..][0] == Field("version");
  }

  lemma LayoutSeparated()
    ensures Separated(LayoutTokens)
  {
  }

  /** A root free of `{` gives a separated template. */
  lemma GenericSeparated(root: string)
    requires '{' !in root
    ensures Separated(GenericTemplate(root).tokens)
  {
    var lits := Lits(Normalize(root));
    LayoutSeparated();
    SeparatedAfterLiterals(lits, LayoutTokens);
  }

  /** In the generic template the `version` placeholder sits between a literal `v` and a
      `/`, the shape the version scan rewrites. */
  lemma GenericVersionSlot(root: string)
    requires '{' !in root
    ensures var ts := GenericTemplate(root).tokens;
      var k := |root| + 6;
      k + 1 < |ts| && ts[k - 1] == Lit('v') && ts[k] == Field("version") && ts[k + 1] == Lit('/')
  {
    var lits := Lits(Normalize(root));
    var ts := lits + LayoutTokens;
    assert |lits| == |root|;
    assert ts[|root| + 5] == LayoutTokens[5];
    assert ts[|root| + 6] == LayoutTokens[6];
    assert ts[|root| + 7] == LayoutTokens[7];
  }

  /** Literal characters in front keep a pattern separated. */
  lemma SeparatedAfterLiterals(a: seq<Token>, b: seq<Token>)
    requires forall i :: 0 <= i < |a| ==> a[i].Lit?
    requires Separated(b)
    ensures Separated(a + b)
  {
    var ts := a + b;
    forall i | 0 <= i < |ts| && ts[i].Field?
      ensures i + 1 == |ts| || ts[i + 1] == Lit('/')
    {
      assert i >= |a|;
      assert ts[i] == b[i - |a|];
      if i + 1 < |ts| {
        assert ts[i + 1] == b[i + 1 - |a|];
      }
    }
  }
}

=== FILE: text.dfy ===
/** The string operations of Python that the modelled code relies on:
    `str.replace`, `str.split`/`str.join` (as the reference meaning of replace),
    `str(int)`, `str.zfill` and `int(str)`. */
module Text {
  import opened Results

  predicate IsDigit(c: char) {
    '0' <= c <= '9'
  }

  predicate AllDigits(s: string) {
    forall i :: 0 <= i < |s| ==> IsDigit(s[i])
  }

  predicate StartsWith(s: string, prefix: string) {
    |prefix| <= |s| && s[..|prefix|] == prefix
  }

  predicate EndsWith(s: string, suffix: string) {
    |suffix| <= |s| && s[|s| - |suffix|..] == suffix
  }

  /** `needle` occurs in `s` at some position. */
  predicate Occurs(needle: string, s: string) {
    exists i :: 0 <= i <= |s| && StartsWith(s[i..], needle)
  }

  // ---------------------------------------------------------------------------
  // replace, split, join
  // ---------------------------------------------------------------------------

  /** Python's `s.replace(needle, repl)`: occurrences are found left to right and never
      overlap; an empty needle inserts `repl` before every character and at the end. */
  function Replace(s: string, needle: string, repl: string): string
    decreases |s|
  {
    if needle == [] then InsertEverywhere(s, repl)
    else if StartsWith(s, needle) then repl + Replace(s[|needle|..], needle, repl)
    else if s == [] then []
    else [s[0]] + Replace(s[1..], needle, repl)
  }

  function InsertEverywhere(s: string, repl: string): (r: string)
    ensures |r| == |s| + (|s| + 1) * |repl|
  {
    if s == [] then repl else repl + [s[0]] + InsertEverywhere(s[1..], repl)
  }

  /** Python's `s.split(sep)` for a non-empty separator. */
  function Split(s: string, sep: string): (pieces: seq<string>)
    requires sep != []
    ensures |pieces| >= 1
    decreases |s|
  {
    if StartsWith(s, sep) then [[]] + Split(s[|sep|..], sep)
    else if s == [] then [[]]
    else PrependToFirst(s[0], Split(s[1..], sep))
  }

  /** Adds a character to the front of the first piece. */
  function PrependToFirst(c: char, pieces: seq<string>): (r: seq<string>)
    requires |pieces| >= 1
    ensures |r| == |pieces| && r[0] == [c] + pieces[0] && r[1..] == pieces[1..]
  {
    [[c] + pieces[0]] + pieces[1..]
  }

  lemma JoinPrependToFirst(c: char, pieces: seq<string>, sep: string)
    requires |pieces| >= 1
    ensures Join(PrependToFirst(c, pieces), sep) == [c] + Join(pieces, sep)
  {
    var r := PrependToFirst(c, pieces);
    if |pieces| > 1 {
      assert Join(r, sep) == r[0] + sep + Join(r[1..], sep);
    }
  }

  /** Python's `sep.join(pieces)`. */
  function Join(pieces: seq<string>, sep: string): string
  {
    if pieces == [] then []
    else if |pieces| == 1 then pieces[0]
    else pieces[0] + sep + Join(pieces[1..], sep)
  }

  /** Splitting and joining with the same separator gives back the text. */
  lemma {:induction false} JoinSplit(s: string, sep: string)
    requires sep != []
    ensures Join(Split(s, sep), sep) == s
    decreases |s|
  {
    if StartsWith(s, sep) {
      JoinSplit(s[|sep|..], sep);
      JoinSplitAtSeparator(s, sep);
    } else if s != [] {
      JoinSplit(s[1..], sep);
      JoinSplitAtCharacter(s, sep);
    }
  }

  lemma JoinSplitAtSeparator(s: string, sep: string)
    requires sep != [] && StartsWith(s, sep)
    requires Join(Split(s[|sep|..], sep), sep) == s[|sep|..]
    ensures Join(Split(s, sep), sep) == s
  {
    var rest := Split(s[|sep|..], sep);
    assert Split(s, sep) == [[]] + rest;
    JoinEmptyFirst(rest, sep);
    assert s == sep + s[|sep|..];
  }

  /** An empty first piece contributes only the separator after it. */
  lemma JoinEmptyFirst(rest: seq<string>, sep: string)
    requires |rest| >= 1
    ensures Join([[]] + rest, sep) == sep + Join(rest, sep)
  {
    assert ([[]] + rest)[1..] == rest;
  }

  lemma JoinSplitAtCharacter(s: string, sep: string)
    requires sep != [] && !StartsWith(s, sep) && s != []
    requires Join(Split(s[1..], sep), sep) == s[1..]
    ensures Join(Split(s, sep), sep) == s
  {
    JoinPrependToFirst(s[0], Split(s[1..], sep), sep);
    assert s == [s[0]] + s[1..];
  }

  /** The first piece of a split is a prefix of the text. */
  lemma {:induction false} FirstPieceIsPrefix(s: string, sep: string)
    requires sep != []
    ensures StartsWith(s, Split(s, sep)[0])
    decreases |s|
  {
    if StartsWith(s, sep) {
    } else if s == [] {
    } else {
      FirstPieceIsPrefix(s[1..], sep);
    }
  }

  lemma PrefixOfPrefix(s: string, p: string, q: string)
    requires StartsWith(s, p)
    ensures StartsWith(p, q) ==> StartsWith(s, q)
  {
    if |q| <= |p| {
      assert s[..|q|] == s[..|p|][..|q|];
    }
  }

  /** No piece of a split contains the separator: the split cuts at every occurrence. */
  lemma {:induction false} SplitPiecesAreFree(s: string, sep: string)
    requires sep != []
    ensures forall k :: 0 <= k < |Split(s, sep)| ==> !Occurs(sep, Split(s, sep)[k])
    decreases |s|
  {
    if StartsWith(s, sep) {
      SplitPiecesAreFree(s[|sep|..], sep);
      var rest := Split(s[|sep|..], sep);
      assert Split(s, sep) == [[]] + rest;
      assert !Occurs(sep, []);
      forall k | 0 <= k < |Split(s, sep)|
        ensures !Occurs(sep, Split(s, sep)[k])
      {
        if k > 0 {
          assert Split(s, sep)[k] == rest[k - 1];
        }
      }
    } else if s == [] {
      assert !Occurs(sep, []);
    } else {
      SplitPiecesAreFree(s[1..], sep);
      FirstPieceIsPrefix(s[1..], sep);
      var rest := Split(s[1..], sep);
      var p0 := [s[0]] + rest[0];
      assert Split(s, sep) == PrependToFirst(s[0], rest);
      assert !Occurs(sep, rest[0]);
      forall i | 0 <= i <= |p0|
        ensures !StartsWith(p0[i..], sep)
      {
        if i == 0 {
          assert p0[0..] == p0;
          PrefixOfPrefix(s, p0, sep);
        } else {
          assert p0[i..] == rest[0][i - 1..];
        }
      }
      forall k | 0 <= k < |Split(s, sep)|
        ensures !Occurs(sep, Split(s, sep)[k])
      {
        if k > 0 {
          assert Split(s, sep)[k] == rest[k];
        }
      }
    }
  }

  /** Python promises `s.replace(a, b) == b.join(s.split(a))` for a non-empty `a`. */
  lemma {:induction false} ReplaceIsJoinOfSplit(s: string, needle: string, repl: string)
    requires needle != []
    ensures Replace(s, needle, repl) == Join(Split(s, needle), repl)
    decreases |s|
  {
    if StartsWith(s, needle) {
      ReplaceIsJoinOfSplit(s[|needle|..], needle, repl);
    } else if s == [] {
    } else {
      ReplaceIsJoinOfSplit(s[1..], needle, repl);
      JoinPrependToFirst(s[0], Split(s[1..], needle), repl);
    }
  }

  /** A needle with a character that `s` lacks does not occur in `s`. */
  lemma AbsentChar(needle: string, s: string, k: nat)
    requires k < |needle| && needle[k] !in s
    ensures !Occurs(needle, s)
  {
    forall i | 0 <= i <= |s|
      ensures !StartsWith(s[i..], needle)
    {
      if |needle| <= |s| - i {
        assert s[i..][k] == s[i + k];
        assert s[i + k] in s;
      }
    }
  }

  /** Text without an occurrence of the needle is returned unchanged. */
  lemma {:induction false} ReplaceWithoutOccurrence(s: string, needle: string, repl: string)
    requires needle != [] && !Occurs(needle, s)
    ensures Replace(s, needle, repl) == s
    decreases |s|
  {
    if s != [] {
      assert s[0..] == s;
      assert !StartsWith(s, needle);
      forall i | 0 <= i <= |s[1..]|
        ensures !StartsWith(s[1..][i..], needle)
      {
        assert s[1..][i..] == s[i + 1..];
      }
      ReplaceWithoutOccurrence(s[1..], needle, repl);
    }
  }

  // ---------------------------------------------------------------------------
  // separators
  // ---------------------------------------------------------------------------

  /** `s.replace("\\", "/")`: every backslash becomes a forward slash, nothing else moves. */
  function Normalize(s: string): (r: string)
    ensures |r| == |s|
    ensures forall i :: 0 <= i < |s| ==> r[i] == (if s[i] == '\\' then '/' else s[i])
  {
    NormalizeCharwise(s);
    Replace(s, "\\", "/")
  }

  lemma {:induction false} NormalizeCharwise(s: string)
    ensures |Replace(s, "\\", "/")| == |s|
    ensures forall i :: 0 <= i < |s| ==>
      Replace(s, "\\", "/")[i] == (if s[i] == '\\' then '/' else s[i])
    decreases |s|
  {
    if s != [] {
      NormalizeCharwise(s[1..]);
      assert StartsWith(s, "\\") <==> s[0] == '\\';
    }
  }

  lemma NormalizeAppend(a: string, b: string)
    ensures Normalize(a + b) == Normalize(a) + Normalize(b)
  {
    assert forall i :: 0 <= i < |a| ==> (a + b)[i] == a[i];
    assert forall i :: |a| <= i < |a| + |b| ==> (a + b)[i] == b[i - |a|];
  }

  /** Normalising turns every `\` into one more `/`. */
  lemma {:induction false} NormalizeSlashes(s: string)
    ensures multiset(Normalize(s))['/'] == multiset(s)['/'] + multiset(s)['\\']
  {
    if s != [] {
      NormalizeSlashes(s[1..]);
      assert s == [s[0]] + s[1..];
      NormalizeAppend([s[0]], s[1..]);
    }
  }

  // ---------------------------------------------------------------------------
  // integers as text
  // ---------------------------------------------------------------------------

  function DigitChar(d: nat): (c: char)
    requires d < 10
    ensures IsDigit(c)
  {
    (d + '0' as int) as char
  }

  function DigitValue(c: char): nat
    requires IsDigit(c)
  {
    c as int - '0' as int
  }

  /** Decimal digits of a natural number, without leading zeros. */
  function NatStr(n: nat): (r: string)
    ensures r != [] && AllDigits(r)
    decreases n
  {
    if n < 10 then [DigitChar(n)] else NatStr(n / 10) + [DigitChar(n % 10)]
  }

  /** Python's `str(n)` for an int. */
  function Str(n: int): string {
    if n < 0 then "-" + NatStr(-n) else NatStr(n)
  }

  /** The value of a string of decimal digits (leading zeros allowed). */
  function DigitsValue(s: string): nat
    requires AllDigits(s)
    decreases |s|
  {
    if s == [] then 0 else DigitsValue(s[..|s| - 1]) * 10 + DigitValue(s[|s| - 1])
  }

  /** Python's `int(text)` for an optional sign followed by ASCII digits; any other
      text raises ValueError. */
  function ParseInt(text: string): (r: Result<int>)
    ensures r.Err? ==> r.error == NotAnInteger(text)
    ensures r.Ok? ==> text != [] && AllDigits(text[1..])
  {
    if |text| > 1 && (text[0] == '-' || text[0] == '+') && AllDigits(text[1..]) then
      var magnitude: int := DigitsValue(text[1..]);
      Ok(if text[0] == '-' then -magnitude else magnitude)
    else if text != [] && AllDigits(text) then
      Ok(DigitsValue(text))
    else
      Err(NotAnInteger(text))
  }

  function Zeros(n: nat): (r: string)
    ensures |r| == n && AllDigits(r)
    ensures forall i :: 0 <= i < n ==> r[i] == '0'
  {
    seq(n, _ => '0')
  }

  /** Python's `s.zfill(width)`: zeros are inserted after a leading sign until the text is
      `width` long; longer text is left as it is. */
  function ZFill(s: string, width: nat): string {
    if |s| >= width then s
    else if s != [] && (s[0] == '-' || s[0] == '+') then [s[0]] + Zeros(width - |s|) + s[1..]
    else Zeros(width - |s|) + s
  }

  /** zfill pads to exactly `width`, never truncates, and keeps the text as a suffix. */
  lemma ZFillShape(s: string, width: nat)
    ensures |ZFill(s, width)| == if |s| < width then width else |s|
    ensures |s| >= width ==> ZFill(s, width) == s
    ensures s != [] && !(s[0] == '-' || s[0] == '+') ==> EndsWith(ZFill(s, width), s)
  {
  }

  lemma ZFillIdempotent(s: string, width: nat)
    ensures ZFill(ZFill(s, width), width) == ZFill(s, width)
  {
    ZFillShape(s, width);
  }

  lemma {:induction false} NatStrValue(n: nat)
    ensures DigitsValue(NatStr(n)) == n
    decreases n
  {
    if n >= 10 {
      NatStrValue(n / 10);
      var s := NatStr(n / 10) + [DigitChar(n % 10)];
      assert s[..|s| - 1] == NatStr(n / 10);
    }
  }

  lemma {:induction false} ZerosValue(k: nat)
    ensures DigitsValue(Zeros(k)) == 0
  {
    if k > 0 {
      assert Zeros(k)[..k - 1] == Zeros(k - 1);
      ZerosValue(k - 1);
    }
  }

  /** Leading zeros do not change the value of a digit string. */
  lemma {:induction false} LeadingZerosValue(k: nat, s: string)
    requires AllDigits(s)
    ensures AllDigits(Zeros(k) + s)
    ensures DigitsValue(Zeros(k) + s) == DigitsValue(s)
    decreases |s|
  {
    var t := Zeros(k) + s;
    assert forall i :: 0 <= i < |t| ==> IsDigit(t[i]) by {
      forall i | 0 <= i < |t| ensures IsDigit(t[i]) {
        if i < k { assert t[i] == Zeros(k)[i]; } else { assert t[i] == s[i - k]; }
      }
    }
    if s == [] {
      assert t == Zeros(k);
      ZerosValue(k);
    } else {
      assert t[..|t| - 1] == Zeros(k) + s[..|s| - 1];
      assert t[|t| - 1] == s[|s| - 1];
      LeadingZerosValue(k, s[..|s| - 1]);
    }
  }

  /** `int(str(n).zfill(width)) == n`: padding only adds leading zeros, which int() strips. */
  lemma ParseZFilledStr(n: int, width: nat)
    ensures ParseInt(ZFill(Str(n), width)) == Ok(n)
  {
    if n >= 0 {
      ParseZFilledNat(n, width);
    } else {
      ParseZFilledNegative(n, width);
    }
  }

  lemma ParseZFilledNat(n: nat, width: nat)
    ensures ParseInt(ZFill(Str(n), width)) == Ok(n)
  {
    var s := NatStr(n);
    assert Str(n) == s;
    NatStrValue(n);
    var z := ZFill(s, width);
    if |s| < width {
      LeadingZerosValue(width - |s|, s);
      assert z == Zeros(width - |s|) + s;
    } else {
      assert z == s;
    }
    assert AllDigits(z) && DigitsValue(z) == n;
    assert IsDigit(z[0]);
  }

  lemma ParseZFilledNegative(n: int, width: nat)
    requires n < 0
    ensures ParseInt(ZFill(Str(n), width)) == Ok(n)
  {
    var d := NatStr(-n);
    NatStrValue(-n);
    var digits := PadDigits(d, width);
    assert Str(n) == "-" + d;
    ZFillNegative(d, width);
    ParseNegative(digits);
  }

  /** The digits of a negative number after zfill: zeros fill up to `width` with the sign. */
  function PadDigits(d: string, width: nat): (r: string)
    requires d != [] && AllDigits(d)
    ensures r != [] && AllDigits(r) && DigitsValue(r) == DigitsValue(d)
  {
    if 1 + |d| < width then
      LeadingZerosValue(width - 1 - |d|, d);
      Zeros(width - 1 - |d|) + d
    else d
  }

  lemma ZFillNegative(d: string, width: nat)
    requires d != [] && AllDigits(d)
    ensures ZFill("-" + d, width) == "-" + PadDigits(d, width)
  {
    if 1 + |d| < width {
      ZFillNegativePadded(d, width);
    } else {
      assert PadDigits(d, width) == d;
    }
  }

  /** A negative number shorter than the width: the zeros go between the sign and the digits. */
  lemma ZFillNegativePadded(d: string, width: nat)
    requires d != [] && AllDigits(d) && 1 + |d| < width
    ensures ZFill("-" + d, width) == "-" + (Zeros(width - 1 - |d|) + d)
  {
    var s := "-" + d;
    var z := Zeros(width - 1 - |d|);
    assert s[0] == '-' && s[1..] == d;
    assert ZFill(s, width) == [s[0]] + z + s[1..];
    assert [s[0]] + z + s[1..] == "-" + (z + d);
  }

  lemma ParseNegative(digits: string)
    requires digits != [] && AllDigits(digits)
    ensures ParseInt("-" + digits) == Ok(0 - DigitsValue(digits) as int)
  {
    var t := "-" + digits;
    assert t[1..] == digits;
  }

  /** `str(7).zfill(3) == "007"` and `str(1234).zfill(3) == "1234"`. */
  lemma ZFillExamples()
    ensures ZFill(Str(7), 3) == "007"
    ensures ZFill(Str(1234), 3) == "1234"
    ensures ZFill(Str(-5), 3) == "-05"
  {
    assert NatStr(7) == "7";
    assert NatStr(1) == "1";
    assert NatStr(12) == "12";
    assert NatStr(123) == "123";
    assert NatStr(1234) == "1234";
    assert NatStr(5) == "5";
  }
}

=== FILE: wrappers.dfy ===
/** config/wrappers.py: the path template wrapper.

    The wrapped template library is not part of this model. A pattern is represented by
    its tokens, one literal character or one named placeholder each, and the library's
    behaviour is replaced by these assumptions:
    - a placeholder is written `{name}`; the first `}` closes it; `{}` is literal text;
    - parsing is a full match in which every placeholder takes a non-empty run of
      characters without `/`, the earliest placeholder taking the longest run that lets
      the rest match (a regular expression's greedy backtracking);
    - a placeholder that appears twice must take the same text both times;
    - formatting substitutes `str(value)` for every placeholder. */
module TemplateWrapper {
  import opened Results
  import opened Text

  datatype Token = Lit(c: char) | Field(name: string)

  datatype Pattern = Pattern(name: string, tokens: seq<Token>)

  /** A pattern accepted by the wrapper's constructor: it has a `version` placeholder. */
  type Template = p: Pattern | "version" in Keys(p.tokens)
    witness Pattern("general", [Field("version")])

  /** A value of the Python field dict: text after parsing, an int after a version update. */
  datatype Value = StrVal(s: string) | IntVal(n: int)

  type Fields = map<string, Value>

  /** Placeholder name to the text that stands in its place. */
  type Binding = map<string, string>

  /** The placeholder names of a token sequence (the library's `keys()`). */
  function Keys(tokens: seq<Token>): set<string> {
    if tokens == [] then {}
    else (if tokens[0].Field? then {tokens[0].name} else {}) + Keys(tokens[1..])
  }

  lemma {:induction false} KeysAppend(a: seq<Token>, b: seq<Token>)
    ensures Keys(a + b) == Keys(a) + Keys(b)
  {
    if a != [] {
      assert (a + b)[1..] == a[1..] + b;
      KeysAppend(a[1..], b);
    } else {
      assert a + b == b;
    }
  }

  // ---------------------------------------------------------------------------
  // pattern text and tokens
  // ---------------------------------------------------------------------------

  /** Position of the first `c` in `s`. */
  function IndexOf(s: string, c: char): (r: Option<nat>)
    ensures r.Some? ==> r.value < |s| && s[r.value] == c && c !in s[..r.value]
    ensures r.None? ==> c !in s
  {
    if s == [] then None
    else if s[0] == c then Some(0)
    else match IndexOf(s[1..], c)
      case Some(j) =>
        assert s[..j + 1] == [s[0]] + s[1..][..j];
        Some(j + 1)
      case None => None
  }

  /** Splits pattern text into literal characters and `{name}` placeholders. */
  function Tokenize(s: string): seq<Token>
    decreases |s|
  {
    if s == [] then []
    else if s[0] != '{' then [Lit(s[0])] + Tokenize(s[1..])
    else match IndexOf(s[1..], '}')
      case Some(j) =>
        if j == 0 then [Lit('{')] + Tokenize(s[1..])
        else [Field(s[1..j + 1])] + Tokenize(s[j + 2..])
      case None => [Lit('{')] + Tokenize(s[1..])
  }

  function RenderToken(t: Token): string {
    match t
    case Lit(c) => [c]
    case Field(n) => "{" + n + "}"
  }

  /** Writes tokens back as pattern text. */
  function Render(tokens: seq<Token>): string {
    if tokens == [] then [] else RenderToken(tokens[0]) + Render(tokens[1..])
  }

  lemma {:induction false} RenderAppend(a: seq<Token>, b: seq<Token>)
    ensures Render(a + b) == Render(a) + Render(b)
  {
    if a != [] {
      assert (a + b)[1..] == a[1..] + b;
      RenderAppend(a[1..], b);
    } else {
      assert a + b == b;
    }
  }

  /** Tokenizing loses nothing: rendering the tokens gives back the pattern text. */
  lemma {:induction false} RenderTokenize(s: string)
    ensures Render(Tokenize(s)) == s
    decreases |s|
  {
    if s == [] {
    } else if s[0] != '{' || IndexOf(s[1..], '}').None? || IndexOf(s[1..], '}').value == 0 {
      TokenizeLiteralStep(s);
      RenderTokenize(s[1..]);
      RenderLiteralStep(s, Tokenize(s[1..]));
    } else {
      var j := IndexOf(s[1..], '}').value;
      TokenizeFieldStep(s, j);
      RenderTokenize(s[j + 2..]);
      RenderFieldStep(s, j, Tokenize(s[j + 2..]));
    }
  }

  lemma TokenizeLiteralStep(s: string)
    requires s != [] && (s[0] != '{' || IndexOf(s[1..], '}').None? || IndexOf(s[1..], '}').value == 0)
    ensures Tokenize(s) == [Lit(s[0])] + Tokenize(s[1..])
  {
  }

  lemma TokenizeFieldStep(s: string, j: nat)
    requires s != [] && s[0] == '{' && IndexOf(s[1..], '}') == Some(j) && j > 0
    ensures j + 2 <= |s| && s[j + 1] == '}'
    ensures Tokenize(s) == [Field(s[1..j + 1])] + Tokenize(s[j + 2..])
  {
  }

  lemma RenderLiteralStep(s: string, ts: seq<Token>)
    requires s != [] && Render(ts) == s[1..]
    ensures Render([Lit(s[0])] + ts) == s
  {
    assert ([Lit(s[0])] + ts)[1..] == ts;
  }

  lemma RenderFieldStep(s: string, j: nat, ts: seq<Token>)
    requires 0 < j && j + 2 <= |s| && s[0] == '{' && s[j + 1] == '}'
    requires Render(ts) == s[j + 2..]
    ensures Render([Field(s[1..j + 1])] + ts) == s
  {
    assert ([Field(s[1..j + 1])] + ts)[1..] == ts;
    assert s == [s[0]] + s[1..j + 1] + [s[j + 1]] + s[j + 2..];
  }

  /** Every literal character of the tokens appears in their rendering. */
  lemma {:induction false} LiteralsAreRendered(tokens: seq<Token>)
    ensures forall i :: 0 <= i < |tokens| && tokens[i].Lit? ==> tokens[i].c in Render(tokens)
  {
    if tokens != [] {
      LiteralsAreRendered(tokens[1..]);
      forall i | 0 <= i < |tokens| && tokens[i].Lit?
        ensures tokens[i].c in Render(tokens)
      {
        if i > 0 {
          assert tokens[i] == tokens[1..][i - 1];
        }
      }
    }
  }

  /** `TemplateWrapper(name, path)`: backslashes in the pattern become `/`, then a pattern
      without a `version` placeholder raises ValueError. */
  function NewTemplate(name: string, pattern: string): (r: Result<Template>)
    ensures r.Ok? <==> "version" in Keys(Tokenize(Normalize(pattern)))
    ensures r.Ok? ==> r.value.name == name && Render(r.value.tokens) == Normalize(pattern)
    ensures r.Ok? ==> forall i :: 0 <= i < |r.value.tokens| ==> r.value.tokens[i] != Lit('\\')
    ensures r.Err? ==> r.error == InvalidTemplate(name)
  {
    var tokens := Tokenize(Normalize(pattern));
    RenderTokenize(Normalize(pattern));
    LiteralsAreRendered(tokens);
    if "version" in Keys(tokens) then Ok(Pattern(name, tokens)) else Err(InvalidTemplate(name))
  }

  // ---------------------------------------------------------------------------
  // format
  // ---------------------------------------------------------------------------

  /** Substitutes every placeholder; the first placeholder without a value raises. */
  function Fill(tokens: seq<Token>, m: Binding): (r: Result<string>)
    ensures r.Ok? <==> Keys(tokens) <= m.Keys
    ensures r.Err? ==> r.error.MissingField? && r.error.field in Keys(tokens) && r.error.field !in m
  {
    if tokens == [] then Ok([])
    else
      var head :- match tokens[0]
        case Lit(c) => Ok([c])
        case Field(n) => if n in m then Ok(m[n]) else Err(MissingField(n));
      var tail :- Fill(tokens[1..], m);
      Ok(head + tail)
  }

  /** Python's `str(value)`. */
  function ValueStr(v: Value): string {
    match v
    case StrVal(s) => s
    case IntVal(n) => Str(n)
  }

  function Strings(fields: Fields): Binding {
    map n | n in fields :: ValueStr(fields[n])
  }

  /** The write-back `format` makes into the caller's dict: `version` becomes
      `str(version).zfill(3)` and nothing else changes. */
  function PadVersion(fields: Fields): (r: Fields)
    ensures r.Keys == fields.Keys
    ensures forall n :: n in fields && n != "version" ==> r[n] == fields[n]
    ensures "version" in fields ==> r["version"].StrVal? && |r["version"].s| >= 3
    ensures "version" in fields && fields["version"].IntVal? ==>
      ParseInt(r["version"].s) == Ok(fields["version"].n)
    ensures "version" in fields && |ValueStr(fields["version"])| >= 3 ==>
      r["version"] == StrVal(ValueStr(fields["version"]))
  {
    if "version" in fields then
      var padded := ZFill(ValueStr(fields["version"]), 3);
      ZFillShape(ValueStr(fields["version"]), 3);
      PaddedIntReadsBack(fields["version"]);
      fields["version" := StrVal(padded)]
    else fields
  }

  lemma PaddedIntReadsBack(v: Value)
    ensures v.IntVal? ==> ParseInt(ZFill(ValueStr(v), 3)) == Ok(v.n)
  {
    if v.IntVal? {
      ParseZFilledStr(v.n, 3);
    }
  }

  /** The text `format` gives an integer version `v`: `str(v).zfill(3)`. */
  function Padded(v: int): string {
    ZFill(Str(v), 3)
  }

  /** Formatting with an integer version writes back its padded text. */
  lemma PaddedText(f: Fields, v: int)
    ensures PadVersion(f["version" := IntVal(v)])["version"].s == Padded(v)
  {
  }

  /** `TemplateWrapper.format(fields)`. */
  function Format(t: Template, fields: Fields): (r: Result<string>)
    ensures r.Ok? <==> Keys(t.tokens) <= fields.Keys
  {
    Fill(t.tokens, Strings(PadVersion(fields)))
  }

  /** Padding twice is padding once, so formatting already formatted fields changes nothing. */
  lemma FormatIdempotent(t: Template, fields: Fields)
    ensures PadVersion(PadVersion(fields)) == PadVersion(fields)
    ensures Format(t, PadVersion(fields)) == Format(t, fields)
  {
    if "version" in fields {
      ZFillIdempotent(ValueStr(fields["version"]), 3);
    }
  }

  /** Substituted text lengths add up, so a longer value gives a longer path. */
  lemma {:induction false} FillLengthMonotone(tokens: seq<Token>, m: Binding, n: string, x: string, y: string)
    requires Keys(tokens) <= m.Keys + {n}
    requires |x| <= |y|
    ensures |Fill(tokens, m[n := x]).value| <= |Fill(tokens, m[n := y]).value|
    ensures n in Keys(tokens) && |x| < |y| ==>
      |Fill(tokens, m[n := x]).value| < |Fill(tokens, m[n := y]).value|
  {
    if tokens != [] {
      FillLengthMonotone(tokens[1..], m, n, x, y);
    }
  }

  /** Two values of one placeholder that differ give paths that differ. */
  lemma {:induction false} FillInjective(tokens: seq<Token>, m: Binding, n: string, x: string, y: string)
    requires Keys(tokens) <= m.Keys + {n}
    requires n in Keys(tokens) && x != y
    ensures Fill(tokens, m[n := x]).value != Fill(tokens, m[n := y]).value
  {
    if |x| < |y| {
      FillLengthMonotone(tokens, m, n, x, y);
    } else if |y| < |x| {
      FillLengthMonotone(tokens, m, n, y, x);
    } else {
      FillInjectiveSameLength(tokens, m, n, x, y);
    }
  }

  lemma {:induction false} FillInjectiveSameLength(tokens: seq<Token>, m: Binding, n: string, x: string, y: string)
    requires Keys(tokens) <= m.Keys + {n}
    requires n in Keys(tokens) && x != y && |x| == |y|
    ensures Fill(tokens, m[n := x]).value != Fill(tokens, m[n := y]).value
  {
    var fx := Fill(tokens, m[n := x]).value;
    var fy := Fill(tokens, m[n := y]).value;
    var tx := Fill(tokens[1..], m[n := x]).value;
    var ty := Fill(tokens[1..], m[n := y]).value;
    if tokens[0] == Field(n) {
      assert fx == x + tx && fy == y + ty;
      assert fx[..|x|] == x && fy[..|y|] == y;
    } else {
      FillInjectiveSameLength(tokens[1..], m, n, x, y);
      var head := if tokens[0].Lit? then [tokens[0].c] else m[tokens[0].name];
      assert fx == head + tx && fy == head + ty;
      assert fx[|head|..] == tx && fy[|head|..] == ty;
    }
  }

  /** The value of a placeholder appears in the formatted text. */
  lemma {:induction false} FillShowsValue(tokens: seq<Token>, m: Binding, n: string)
    requires Keys(tokens) <= m.Keys && n in Keys(tokens)
    ensures Occurs(m[n], Fill(tokens, m).value)
  {
    var f := Fill(tokens, m).value;
    var tail := Fill(tokens[1..], m).value;
    if tokens[0] == Field(n) {
      assert f == m[n] + tail;
      assert f[0..] == f;
      assert StartsWith(f[0..], m[n]);
    } else {
      FillShowsValue(tokens[1..], m, n);
      var head := if tokens[0].Lit? then [tokens[0].c] else m[tokens[0].name];
      assert f == head + tail;
      var i :| 0 <= i <= |tail| && StartsWith(tail[i..], m[n]);
      assert f[|head| + i..] == tail[i..];
    }
  }

  /** `format` renders an int version zero-padded to three digits: 7 as `007`, 1234 as `1234`. */
  lemma FormatPadsVersion(t: Template, fields: Fields, v: int)
    requires Keys(t.tokens) <= fields.Keys
    requires fields["version"] == IntVal(v)
    ensures Occurs(Padded(v), Format(t, fields).value)
  {
    FillShowsValue(t.tokens, Strings(PadVersion(fields)), "version");
  }

  // ---------------------------------------------------------------------------
  // parse
  // ---------------------------------------------------------------------------

  /** Length of the longest prefix without `/`. */
  function Run(p: string): (n: nat)
    ensures n <= |p|
    ensures forall i :: 0 <= i < n ==> p[i] != '/'
    ensures n < |p| ==> p[n] == '/'
  {
    if p == [] || p[0] == '/' then 0 else 1 + Run(p[1..])
  }

  /** Matches `p` against the tokens, extending the binding `b`. */
  function MatchFrom(tokens: seq<Token>, p: string, b: Binding): Option<Binding>
    decreases |tokens|, 1, 0
  {
    if tokens == [] then (if p == [] then Some(b) else None)
    else match tokens[0]
      case Lit(c) =>
        if p != [] && p[0] == c then MatchFrom(tokens[1..], p[1..], b) else None
      case Field(n) =>
        if n in b then
          (if StartsWith(p, b[n]) then MatchFrom(tokens[1..], p[|b[n]|..], b) else None)
        else TryValues(tokens, p, b, Run(p))
  }

  /** Tries the first `k` characters as the value of the leading placeholder, then
      shorter ones. */
  function TryValues(tokens: seq<Token>, p: string, b: Binding, k: nat): Option<Binding>
    requires tokens != [] && tokens[0].Field? && k <= |p|
    decreases |tokens|, 0, k
  {
    if k == 0 then None
    else match MatchFrom(tokens[1..], p[k..], b[tokens[0].name := p[..k]])
      case Some(r) => Some(r)
      case None => TryValues(tokens, p, b, k - 1)
  }

  /** A successful match keeps the binding it started from, binds every placeholder,
      and substituting the binding gives back exactly the matched text. */
  lemma {:induction false} MatchReproduces(tokens: seq<Token>, p: string, b: Binding)
    requires MatchFrom(tokens, p, b).Some?
    ensures var r := MatchFrom(tokens, p, b).value;
      r.Keys == b.Keys + Keys(tokens)
      && (forall n :: n in b ==> r[n] == b[n])
      && Fill(tokens, r) == Ok(p)
    decreases |tokens|, 1, 0
  {
    if tokens != [] {
      var r := MatchFrom(tokens, p, b).value;
      match tokens[0]
      case Lit(c) =>
        MatchReproduces(tokens[1..], p[1..], b);
        assert p == [c] + p[1..];
      case Field(n) =>
        if n in b {
          MatchReproduces(tokens[1..], p[|b[n]|..], b);
          assert p == b[n] + p[|b[n]|..];
        } else {
          TryValuesReproduces(tokens, p, b, Run(p));
        }
    }
  }

  lemma {:induction false} TryValuesReproduces(tokens: seq<Token>, p: string, b: Binding, k: nat)
    requires tokens != [] && tokens[0].Field? && k <= |p|
    requires TryValues(tokens, p, b, k).Some?
    ensures var r := TryValues(tokens, p, b, k).value;
      r.Keys == b.Keys + Keys(tokens)
      && (forall n :: n in b && n != tokens[0].name ==> r[n] == b[n])
      && Fill(tokens, r) == Ok(p)
    decreases |tokens|, 0, k
  {
    var n := tokens[0].name;
    var b' := b[n := p[..k]];
    match MatchFrom(tokens[1..], p[k..], b')
    case Some(r) =>
      MatchReproduces(tokens[1..], p[k..], b');
      assert p == p[..k] + p[k..];
    case None =>
      TryValuesReproduces(tokens, p, b, k - 1);
  }

  /** Under the matching assumption every value bound by a match is non-empty and free of `/`. */
  lemma {:induction false} MatchParseable(tokens: seq<Token>, p: string, b: Binding)
    requires MatchFrom(tokens, p, b).Some?
    requires forall n :: n in b ==> Parseable(b[n])
    ensures var r := MatchFrom(tokens, p, b).value;
      forall n :: n in r ==> Parseable(r[n])
    decreases |tokens|, 1, 0
  {
    if tokens != [] {
      match tokens[0]
      case Lit(c) =>
        MatchParseable(tokens[1..], p[1..], b);
      case Field(n) =>
        if n in b {
          MatchParseable(tokens[1..], p[|b[n]|..], b);
        } else {
          TryValuesParseable(tokens, p, b, Run(p));
        }
    }
  }

  lemma {:induction false} TryValuesParseable(tokens: seq<Token>, p: string, b: Binding, k: nat)
    requires tokens != [] && tokens[0].Field? && k <= Run(p)
    requires TryValues(tokens, p, b, k).Some?
    requires forall n :: n in b ==> Parseable(b[n])
    ensures var r := TryValues(tokens, p, b, k).value;
      forall n :: n in r ==> Parseable(r[n])
    decreases |tokens|, 0, k
  {
    var n := tokens[0].name;
    var b' := b[n := p[..k]];
    match MatchFrom(tokens[1..], p[k..], b')
    case Some(r) =>
      assert '/' !in p[..k] by {
        forall i | 0 <= i < k ensures p[..k][i] != '/' {}
      }
      MatchParseable(tokens[1..], p[k..], b');
    case None =>
      TryValuesParseable(tokens, p, b, k - 1);
  }

  /** `TemplateWrapper.parse(path)`: every field of a successful parse is text; the path is
      matched as given, without turning backslashes into `/`. */
  function Parse(t: Template, path: string): (r: Result<Fields>)
    ensures r.Err? ==> r.error == PatternMismatch(path)
    ensures r.Ok? ==> r.value.Keys == Keys(t.tokens)
    ensures r.Ok? ==> forall n :: n in r.value ==> r.value[n].StrVal?
    ensures r.Ok? ==> Fill(t.tokens, Strings(r.value)) == Ok(path)
    ensures r.Ok? ==> forall n :: n in r.value ==> Parseable(r.value[n].s)
  {
    match MatchFrom(t.tokens, path, map[])
    case Some(b) =>
      MatchReproduces(t.tokens, path, map[]);
      MatchParseable(t.tokens, path, map[]);
      var fields := map n | n in b :: StrVal(b[n]);
      assert Strings(fields) == b;
      Ok(fields)
    case None => Err(PatternMismatch(path))
  }

  /** How many `/` characters the literal part of a pattern holds. */
  function LiteralSlashes(tokens: seq<Token>): nat {
    if tokens == [] then 0
    else (if tokens[0] == Lit('/') then 1 else 0) + LiteralSlashes(tokens[1..])
  }

  /** With `/`-free values, every `/` of the substituted text is one of the pattern's. */
  lemma {:induction false} FillSlashes(tokens: seq<Token>, m: Binding)
    requires Keys(tokens) <= m.Keys
    requires forall n :: n in Keys(tokens) ==> '/' !in m[n]
    ensures multiset(Fill(tokens, m).value)['/'] == LiteralSlashes(tokens)
  {
    if tokens != [] {
      FillSlashes(tokens[1..], m);
      var tail := Fill(tokens[1..], m).value;
      match tokens[0]
      case Lit(c) =>
        assert Fill(tokens, m).value == [c] + tail;
      case Field(n) =>
        assert Fill(tokens, m).value == m[n] + tail;
        assert '/' !in multiset(m[n]);
    }
  }

  /** A path the template parses holds exactly the template's `/` characters. */
  lemma ParseSlashes(t: Template, path: string)
    requires Parse(t, path).Ok?
    ensures multiset(path)['/'] == LiteralSlashes(t.tokens)
  {
    var fields := Parse(t, path).value;
    var m := Strings(fields);
    assert forall n :: n in Keys(t.tokens) ==> m[n] == fields[n].s;
    FillSlashes(t.tokens, m);
  }

  /** Parse then format gives back the path exactly when the version text is at least
      three characters long; a shorter one is widened by the zero padding. */
  lemma FormatParseRoundTrip(t: Template, path: string)
    requires Parse(t, path).Ok?
    ensures var fields := Parse(t, path).value;
      Format(t, fields) == Ok(path) <==> |fields["version"].s| >= 3
  {
    var fields := Parse(t, path).value;
    var text := fields["version"].s;
    var m := Strings(fields);
    assert m == m["version" := text];
    if |text| >= 3 {
      assert PadVersion(fields) == fields;
    } else {
      var padded := ZFill(text, 3);
      ZFillShape(text, 3);
      assert Strings(PadVersion(fields)) == m["version" := padded];
      FillLengthMonotone(t.tokens, m, "version", text, padded);
    }
  }

  /** A literal at the front of the pattern must be matched character for character. */
  lemma ParseNeedsLeadingLiteral(t: Template, path: string)
    requires t.tokens != [] && t.tokens[0].Lit?
    requires path == [] || path[0] != t.tokens[0].c
    ensures Parse(t, path) == Err(PatternMismatch(path))
  {
  }

  /** Every placeholder is followed by a `/` literal or ends the pattern. */
  predicate Separated(tokens: seq<Token>) {
    forall i :: 0 <= i < |tokens| && tokens[i].Field? ==> i + 1 == |tokens| || tokens[i + 1] == Lit('/')
  }

  /** A value that the parse assumption can recover: non-empty, without `/`. */
  predicate Parseable(v: string) {
    v != [] && '/' !in v
  }

  function Restrict(m: Binding, keys: set<string>): Binding
    requires keys <= m.Keys
  {
    map n | n in keys :: m[n]
  }

  /** In a separated pattern whose values are parseable, matching the formatted text
      recovers exactly the values that were substituted. */
  lemma {:induction false} MatchFill(tokens: seq<Token>, m: Binding, b: Binding)
    requires Separated(tokens)
    requires forall n :: n in Keys(tokens) ==> n in m && Parseable(m[n])
    requires forall n :: n in b ==> n in m && b[n] == m[n]
    ensures MatchFrom(tokens, Fill(tokens, m).value, b) == Some(b + Restrict(m, Keys(tokens)))
  {
    if tokens == [] {
      assert b + Restrict(m, {}) == b;
    } else {
      var tail := tokens[1..];
      assert Separated(tail) by {
        forall i | 0 <= i < |tail| && tail[i].Field?
          ensures i + 1 == |tail| || tail[i + 1] == Lit('/')
        {
          assert tail[i] == tokens[i + 1];
        }
      }
      if tokens[0].Lit? {
        MatchFill(tail, m, b);
        MatchFillLiteral(tokens, m, b);
      } else if tokens[0].name in b {
        MatchFill(tail, m, b);
        MatchFillBound(tokens, m, b);
      } else {
        MatchFill(tail, m, b[tokens[0].name := m[tokens[0].name]]);
        MatchFillFree(tokens, m, b);
      }
    }
  }

  lemma MatchFillLiteral(tokens: seq<Token>, m: Binding, b: Binding)
    requires tokens != [] && tokens[0].Lit? && Keys(tokens) <= m.Keys
    requires MatchFrom(tokens[1..], Fill(tokens[1..], m).value, b) ==
      Some(b + Restrict(m, Keys(tokens[1..])))
    ensures MatchFrom(tokens, Fill(tokens, m).value, b) == Some(b + Restrict(m, Keys(tokens)))
  {
    var p := Fill(tokens, m).value;
    var rest := Fill(tokens[1..], m).value;
    assert p == [tokens[0].c] + rest;
    assert p[1..] == rest;
    assert Keys(tokens) == Keys(tokens[1..]);
  }

  lemma MatchFillBound(tokens: seq<Token>, m: Binding, b: Binding)
    requires tokens != [] && tokens[0].Field? && Keys(tokens) <= m.Keys
    requires tokens[0].name in b && b[tokens[0].name] == m[tokens[0].name]
    requires MatchFrom(tokens[1..], Fill(tokens[1..], m).value, b) ==
      Some(b + Restrict(m, Keys(tokens[1..])))
    ensures MatchFrom(tokens, Fill(tokens, m).value, b) == Some(b + Restrict(m, Keys(tokens)))
  {
    var n := tokens[0].name;
    var p := Fill(tokens, m).value;
    var rest := Fill(tokens[1..], m).value;
    assert p == m[n] + rest;
    assert StartsWith(p, b[n]);
    assert p[|b[n]|..] == rest;
    assert b + Restrict(m, Keys(tokens[1..])) == b + Restrict(m, Keys(tokens));
  }

  lemma MatchFillFree(tokens: seq<Token>, m: Binding, b: Binding)
    requires tokens != [] && tokens[0].Field? && Keys(tokens) <= m.Keys
    requires Separated(tokens) && Parseable(m[tokens[0].name])
    requires tokens[0].name !in b
    requires MatchFrom(tokens[1..], Fill(tokens[1..], m).value, b[tokens[0].name := m[tokens[0].name]]) ==
      Some(b[tokens[0].name := m[tokens[0].name]] + Restrict(m, Keys(tokens[1..])))
    ensures MatchFrom(tokens, Fill(tokens, m).value, b) == Some(b + Restrict(m, Keys(tokens)))
  {
    var n := tokens[0].name;
    var tail := tokens[1..];
    var p := Fill(tokens, m).value;
    var rest := Fill(tail, m).value;
    var k := |m[n]|;
    assert p == m[n] + rest;
    assert rest == [] || rest[0] == '/' by {
      if tail != [] {
        assert tokens[1] == Lit('/');
        assert rest == ['/'] + Fill(tail[1..], m).value;
      }
    }
    RunOfValue(m[n], rest);
    assert p[..k] == m[n] && p[k..] == rest;
    assert b[n := m[n]] + Restrict(m, Keys(tail)) == b + Restrict(m, Keys(tokens));
    assert TryValues(tokens, p, b, k) == Some(b + Restrict(m, Keys(tokens)));
  }

  lemma RunOfValue(v: string, rest: string)
    requires Parseable(v)
    requires rest == [] || rest[0] == '/'
    ensures Run(v + rest) == |v|
  {
    var p := v + rest;
    assert forall i :: 0 <= i < |v| ==> p[i] == v[i] && v[i] in v;
    assert |v| < |p| ==> p[|v|] == rest[0];
  }

  /** Formatting then parsing a separated template gives back the padded fields as text. */
  lemma ParseFormat(t: Template, fields: Fields)
    requires Separated(t.tokens)
    requires Keys(t.tokens) <= fields.Keys
    requires forall n :: n in Keys(t.tokens) ==> Parseable(ValueStr(PadVersion(fields)[n]))
    ensures Parse(t, Format(t, fields).value) ==
      Ok(map n | n in Keys(t.tokens) :: StrVal(ValueStr(PadVersion(fields)[n])))
  {
    var m := Strings(PadVersion(fields));
    var b := Restrict(m, Keys(t.tokens));
    MatchFill(t.tokens, m, map[]);
    assert map[] + b == b;
    assert MatchFrom(t.tokens, Format(t, fields).value, map[]) == Some(b);
    assert (map n | n in b :: StrVal(b[n])) ==
      (map n | n in Keys(t.tokens) :: StrVal(ValueStr(PadVersion(fields)[n])));
  }
}
